=== FILE: README.md ===
# go-reader in Dafny

go-reader is a terminal reader for plain-text novels. Importing a book works as follows:

- It classifies the file's detected charset.
- It decodes GB text and drops empty lines.
- It registers the book's title and line count in a catalog.
- It writes the kept lines, each followed by "\n", to `download/<title><ext>`.

Opening a book reads `download/<title>.txt` back line by line and indexes its chapter headings, which match `第…章` or `第…卷`. It then resolves the saved line position to a chapter. The pager lays that chapter out for the terminal:

- it splits the body into logical lines;
- it wraps each line by display width;
- it pads the result to whole pages;
- it records which logical line ends each page.

The pager then pages through the chapter, moving to the neighbouring chapter at either end, and writes the reading position back. The shelf shows each book's progress as a percentage.

This project models that core as pure functions over immutable data:

| module | file | models |
|---|---|---|
| `Wrappers` | wrappers.dfy | `Option` and `Result` |
| `Text` | text.dfy | `strings.Split` / `strings.Join` on `"\n"` |
| `Chapters` | chapters.dfy | heading pattern, chapter index, `GetChapterStart`, `GetBookContent` |
| `Library` | library.dfy | charset classification, empty-line filtering, `PathProc`, `ImportBook`, `ProcBook` |
| `Arith` | arith.dfy | division facts used by the page arithmetic |
| `Layout` | layout.dfy | `proc`: wrapping, padding, the page map, the resume page |
| `Pager` | pager.dfy | `modelPager.Update` as a state machine |
| `Shelf` | shelf.dfy | the progress percentage and opening a book at its saved position |

The Go code keeps the open book and the pager's paging state in package globals:

- `bookAll` and `bookDirs`;
- `pageTotal`, `currentPage`, `jump` and `posMapOffset`.

Here the book is an explicit environment (`Pager.Env`) and the paging state is a value (`Layout.PagerState`). Both are passed in and returned.

Outside effects become data:

- The catalog and the `download/` directory are maps (`Library.Library`).
- Every `UpdateBookPos` call becomes the `persist` field of a `Pager.Step`.
- Every message sent back to the program becomes its `cmd` field.

Go behaviour is modelled explicitly in these places:

- A missing map key reads as 0 (`Pager.MapGet`).
- Integer division truncates toward zero (`Shelf.GoDiv`).
- `strings.Split("")` yields one empty line.
- `bufio.Scanner` ends a line at each "\n" and drops one trailing '\r' from it (`Library.ScanLines`).
- `reader.Peek(4096)` fails with `io.EOF` on a file shorter than 4096 bytes (`Library.ShortFile`).
- Slice-bounds panics are either error values (`Library.CharsetSlicePanic`) or preconditions that name exactly the inputs that panic (`Chapters.PreludeInRange`).
- The integer division by zero in the shelf's progress for a book of length 1 is a precondition, `Shelf.Progress`'s `length != 1`.

Some behaviours of the code are modelled exactly as written and pinned down by lemmas:

- The prelude shown before the first heading leaves out the line just above that heading.
- The prelude exists only when the book has at least two headings.
- A chapter followed by another one shows an empty body unless it has at least two body lines.
- `posMapOffset` is never cleared between layouts.
- A pending jump of exactly 1 is never reset.
- Only the first window-size message lays out text. A later window size only resizes the viewport (views/pager.go:201-204); it does not lay the text out again (`Pager.ResizeLaysOutOnce`).
- A book imported with an extension other than `.txt` cannot be reopened: it is written under its own extension (views/book.go:107) and read back under `.txt` (views/book.go:127). The file picker of the import view offers only `.txt` files, so the program's own UI does not reach this (`Library.ImportThenOpen`).
- When no line of the chapter wraps, a position written by paging reopens one page later. PageUp and PageDown write the chapter start plus the page's map entry (views/pager.go:153, :168), which is the line number of the page's last body line. Reopening turns that line back into an offset from the heading (views/pager.go:211) and asks for page offset/height + 1 (views/pager.go:118). Because the offset counts the heading as line 0, that is the next page (`Layout.ResumeSkipsPage`). When lines wrap, the page is still computed from the logical line as if nothing wrapped, while pages hold physical lines, so it can be the same page or an earlier one.
- A chapter that is only its heading line, such as a volume heading directly above the first chapter heading, has no body. Loading it with a resume line of 0 writes the chapter start plus 1, which is the next heading's line (views/pager.go:216-219), so the book next reopens in the following chapter (`Pager.LoadWritesPosition`).
- A kept line that still ends in '\r' (the file had "\r\r\n") is written with it and read back without it (`Library.ScanDropsCR`).
- A book whose artifact holds one line has length 1, and the shelf's progress divides by zero for it (views/shelf.go:132); `Shelf.Progress` requires `length != 1`.
- The wrapping loop never ends when one character is wider than the window minus 2 cells (views/pager.go:93); `Layout.Proc` requires every character to fit.

## Model

| member | source | states |
|---|---|---|
| Text.Split | views/pager.go:89 | Splitting always gives at least one piece, so an empty body is one empty line. |
| Text.SplitPieces | views/pager.go:89 | No piece contains "\n", and joining the pieces with "\n" gives back the input. |
| Text.Join | views/book.go:177 | No contract of its own; `Text.SplitJoin` shows that joined lines without "\n" split back into exactly themselves. |
| Text.SplitJoin | views/book.go:177 | A chapter body joined with "\n" splits back into exactly its lines, as long as no line contains "\n". |
| Chapters.IsHeading | views/book.go:140 | No contract of its own; `Chapters.HeadingExamples` pins down the pattern and `Chapters.IndexChapters` states that exactly the matching lines become markers. |
| Chapters.HeadingExamples | views/book.go:140 | The heading regex matches anywhere in a line. It needs at least one numeral between 第 and the unit. It accepts only 章 or 卷 as the unit. |
| Chapters.IndexChapters | views/book.go:141-148 | The chapter index holds one marker per line matching the heading pattern. Each marker carries that line's text and number, in line order. No matching line is missed. |
| Chapters.GetChapterStart | views/book.go:185-193 | Gives 0 for a negative index, the marker's line for a valid index, and the line count past the last marker. The result always lies within the book. |
| Chapters.ChapterStartMonotone | views/book.go:185-193 | Chapter starts never decrease with the index. They strictly increase from chapter 0 through the end sentinel. |
| Chapters.FindChapter | views/book.go:160-181 | The search loop returns the first chapter whose range [start, next start) holds the position, with the last chapter's range open above. It returns -1 exactly when there is no marker left or the position precedes it. |
| Chapters.GetBookContent | views/book.go:153-183 | Resolves a position to a chapter index, or -1 exactly when there are no markers or the position lies before the first one. The chapter found starts at or before the position, and the next one starts after it. The title is that chapter's heading, or "" for -1. The content is that chapter's `ChapterContent`; for -1 it is the prelude with at least two markers and "" otherwise. |
| Chapters.ChapterContent | views/book.go:162-177 | No contract of its own; `Chapters.ChapterContentJoin`, `Chapters.ChapterBody` and `Chapters.ChapterLineCount` state which lines it joins and when it is empty. |
| Chapters.ResolveBracketsPosition | views/book.go:160-171 | The resolved chapter's start is at or below the position. The next chapter's start, or the line count, is above it. |
| Chapters.ResolveUnique | views/book.go:160-181 | Conversely, a chapter whose bracket holds the position is the one resolved. |
| Chapters.ResolveMarkerStart | views/book.go:160-179 | A chapter's own heading line resolves to that chapter, and never panics. |
| Chapters.ChapterContentJoin | views/book.go:162-177 | A chapter's content is its lines after the heading up to the next chapter start, joined with "\n", when that range spans at least 3 lines before another chapter or 2 at the end; otherwise it is "". |
| Chapters.ChapterBody | views/book.go:163-178 | With enough lines, the content split into lines is exactly the lines strictly between the heading and the next heading (or the end). |
| Chapters.ChapterLineCount | views/book.go:170-177 | A chapter before the last spans at least one line. With at least 3 it splits into one line fewer than its span; otherwise its content is "". |
| Chapters.PreludeBody | views/book.go:154-158 | Before the first heading, with at least two headings, the prelude is lines 0 to start-2, so the line just above the heading is dropped. Otherwise it is empty. |
| Chapters.ResolveExample | views/book.go:153-183 | Headings at lines 10 and 30 of a 50-line book: line 20 resolves to chapter 0 with body lines 11..29, and line 5 to the prelude, lines 0..8. |
| Library.ClassifyCharset | views/book.go:54-63 | GB/gb prefixes are transcoded and UTF/utf prefixes pass through; any other charset fails with "Unknown encoding: " + charset. Names too short for the slice are a panic error, each case as an if-and-only-if. |
| Library.ClassifyExamples | views/book.go:56-62 | GB2312 and GB-18030 are transcoded, UTF-8 and utf-16le pass through, and Shift_JIS and mixed-case Gb2312 are refused. |
| Library.NonEmptyAppend | views/book.go:80-84 | Filtering empty lines distributes over concatenation, so order is preserved. |
| Library.NonEmptyCounts | views/book.go:80-84 | The filtered lines contain no empty line. Every non-empty line keeps its multiplicity. The result is no longer than the input, and unchanged when there is nothing to drop. |
| Library.DecodeLine | views/book.go:72-79 | No contract of its own; `Library.DecodeAndFilter` and `Library.ImportBook` state that the kept lines are the non-empty results of it, transcoded for a GB charset and passed through for UTF. |
| Library.DecodeAndFilter | views/book.go:70-85 | The scan loop keeps exactly the non-empty decoded lines, in order, and `cnt` is their number. |
| Library.Base | views/book.go:214 | The base name is never empty: "." for the empty path, "/" exactly for a path of slashes only, and otherwise the last '/'-separated element of the path with trailing slashes removed, which holds no '/'. |
| Library.StripTrailingSlashes | views/book.go:214 | Removing trailing slashes leaves a prefix that does not end in '/', and only slashes were removed. |
| Library.Ext | views/book.go:215 | The extension is a suffix of the name, empty or starting with '.', and holds no '/'. |
| Library.DotAt | views/book.go:215 | The backward scan stops at a '.' with neither '.' nor '/' after it up to the starting index, or reports -1. |
| Library.DotAtNone | views/book.go:215 | In a slash-free name, the scan finds no '.' exactly when there is none up to the starting index. |
| Library.ExtProperties | views/book.go:215 | The extension is empty exactly when the base name has no '.'. Otherwise it starts at the last '.' and holds no other '.' and no '/'. |
| Library.PathProc | views/book.go:212-217 | The name and extension concatenate to the base name. The extension is "" exactly when the base has no '.'. Otherwise it is a single dotted suffix. |
| Library.BaseOfJoined | views/book.go:214 | A slash-free file name is the base of any path ending in it. |
| Library.ExtOfTxt | views/book.go:215 | A dot-free stem plus ".txt" has extension ".txt". |
| Library.TitleOfTxt | views/book.go:212-217 | dir/stem.txt splits into the title stem and the extension ".txt". |
| Library.WrittenName | views/book.go:107 | No contract of its own; `Library.WrittenIsRead` compares it with the name the opener reads. |
| Library.ReadName | views/book.go:127 | No contract of its own; `Library.WrittenIsRead` compares it with the name the importer writes. |
| Library.WrittenIsRead | views/book.go:107-127 | The file name the importer writes and the one the opener reads are equal exactly when the extension is ".txt". |
| Library.Serialize | views/book.go:112-116 | The written text is empty exactly when there are no lines, and otherwise ends in "\n", since every line is followed by one; `Library.ScanSerialized` reads it back. |
| Library.ImportBook | views/book.go:33-117 | A file shorter than the 4096-byte peek imports nothing (`io.EOF`). A refused charset imports nothing. A taken title fails with the catalog's uniqueness error. Otherwise, as an if-and-only-if, the catalog gains the title with the number of non-empty decoded lines and position 0, and the artifact under name+ext is those lines, each followed by "\n". |
| Library.ProcBook | views/book.go:120-151 | Opening succeeds exactly for a catalogued title whose ".txt" artifact exists. It returns the catalog's last position, the artifact's scanned lines and the chapter index of those lines. A missing title or file is the matching error. |
| Library.DropCR | views/book.go:138-142 | The scanner drops exactly one trailing '\r' from a line, and nothing else. |
| Library.ScanLines | views/book.go:138-148 | Reading the artifact back yields lines that contain no "\n", no more of them than there are characters. |
| Library.DropCRs | views/book.go:138-148 | Line-wise, each line without its trailing '\r'. |
| Library.ScanSerialized | views/book.go:112-148 | Lines written with "\n" after each come back from the scanner each without one trailing '\r', as long as no line contains "\n". |
| Library.DropCRsNone | views/book.go:138-142 | Lines that do not end in '\r' come back unchanged. |
| Library.ScanDropsCR | views/book.go:112-142 | A kept line "abc\r" is written as "abc\r\n" and read back as "abc". |
| Library.ImportThenOpen | views/book.go:107-148 | A ".txt" import reopens at position 0 with its artifact scanned back. If no kept line contains "\n", that is the kept lines without one trailing '\r' each, as many as the recorded length; if none also ends in '\r', it is exactly the kept lines. An import with any other extension cannot be reopened unless a ".txt" file of that title was already there. |
| Layout.TrimPrefix | views/pager.go:96 | When the prefix is a prefix of the string, the prefix followed by the result is the string; otherwise the string is unchanged. |
| Layout.StringWidth | views/pager.go:93 | No contract of its own; `Layout.StringWidthConcat` states that widths add up, and `Layout.Truncate`, `Layout.Wrap` and `Layout.WrappedWidths` bound widths through it. |
| Layout.StringWidthConcat | views/pager.go:93 | A string's display width is the sum of its characters' widths, so the width of two joined strings is the sum of their widths. |
| Layout.Truncate | views/pager.go:94 | The cut is a prefix no wider than the budget. Either it is the whole string, or one more character would overflow. It is non-empty when the first character fits. |
| Layout.Wrap | views/pager.go:93-98 | The pieces of one line concatenate back to it, and each fits the width. |
| Layout.CutIsProper | views/pager.go:93-97 | While the line is too wide, each cut is a non-empty proper prefix, and the trim removes exactly it. |
| Layout.WrapGreedy | views/pager.go:93-97 | Cuts are greedy: each piece plus the next piece's first character would overflow. |
| Layout.WrapStartsWith | views/pager.go:94 | The first piece of a non-empty line starts with the line's first character. |
| Layout.Wrapped | views/pager.go:92-99 | Wrapping never yields fewer physical lines than logical lines. |
| Layout.WrappedWidths | views/pager.go:93-98 | Every physical line fits the width. |
| Layout.WrappedStep | views/pager.go:92-99 | Each logical line appends exactly its pieces to the output. |
| Layout.WrappedGrows | views/pager.go:92-99 | Output for a prefix of the lines is a prefix of the output. It grows by at least one physical line per logical line. |
| Layout.WrappedPieces | views/pager.go:93-98 | Logical line t occupies a non-empty block of the output, and that block concatenates back to it. |
| Layout.CountGrows | views/pager.go:100 | The running physical count grows strictly with each logical line, and ends at the output's length. |
| Layout.CountsIncrease | views/pager.go:92-100 | The running values of `len(newLines)` strictly increase from line to line. |
| Layout.Marks | views/pager.go:100-103 | No contract of its own; `Layout.MarksSets` and `Layout.MarksKeeps` state which pages it sets and which it keeps. |
| Layout.MarksSets | views/pager.go:100-103 | For strictly increasing counts, whenever the count after line t is a multiple of the height, the map sends that page to t. No later line overwrites it. |
| Layout.MarksKeeps | views/pager.go:100-103 | A page on which no logical line ends keeps its previous entry, or its absence. |
| Layout.Pad | views/pager.go:105-111 | Padding keeps the lines, adds fewer than one page of blank lines, and reaches a whole number of pages. |
| Layout.SplitFits | views/pager.go:89-93 | If every character of the body fits, every character of every split line fits. |
| Layout.PageOf | views/pager.go:118 | The resume page is at least 1; `Layout.PageOfDiv` gives its value, floor(offset/height) + 1. |
| Layout.PageOfDiv | views/pager.go:117-118 | Counting off whole pages of `height` lines from the offset gives floor(offset/height) + 1, the page the Go code computes. |
| Layout.JumpTo | views/pager.go:116-121 | An offset inside the chapter asks for page offset/height + 1, which is a real page. An offset past the end asks for the last page. Otherwise the earlier request stands. |
| Layout.ResumeSkipsPage | views/pager.go:100-118 | With no line wrapped, page q's map entry is line q*height from the heading, and laying the chapter out again at that offset asks for page q+1: a position written for a page reopens on the next page. |
| Layout.Proc | views/pager.go:84-124 | The layout has at least one page and a whole number of pages, at least one physical line per logical line, and page 1 current. The last page maps to the line count. The pending jump is page offset/height + 1 for an offset inside the chapter, the last page past it, and unchanged for offsets <= 0. |
| Layout.ProcPhysical | views/pager.go:105-112 | The laid-out text is the wrapped lines followed by fewer than one page of blank lines. |
| Layout.ProcWidths | views/pager.go:87-98 | No physical line is wider than the window minus its 2-cell margin. |
| Layout.ProcKeepsLine | views/pager.go:92-98 | Layout loses nothing: each logical line is the concatenation of its own non-empty block of physical lines. |
| Layout.ProcMapsBoundary | views/pager.go:100-113 | A page boundary at the end of logical line t maps that page to t. |
| Layout.ProcMapsOthers | views/pager.go:86-103 | Any other page except the last keeps its entry from earlier layouts. Page 1 is forced to map to line 1. |
| Layout.ProcFirstPage | views/pager.go:86-103 | Page 1 always has an entry after a layout, and it names a line of the chapter. |
| Layout.ProcEmpty | views/pager.go:89-112 | An empty body is one logical line and lays out as one page. |
| Layout.WrappedNarrow | views/pager.go:93-98 | Lines that already fit are emitted unchanged, one physical line each. |
| Layout.CountNarrow | views/pager.go:98-100 | When no line needs wrapping, the physical count after t lines is t. |
| Layout.ProcExample | views/pager.go:84-124 | Five narrow lines on 2-line pages give 3 pages. Pages 1, 2 and 3 map to lines 2, 4 and 5 (page 1's forced entry is overwritten), and the pager shows page 1. |
| Pager.MapGet | views/pager.go:153 | No contract of its own; `Pager.PageDownMissingEntry` shows that a page without an entry reads as offset 0. |
| Pager.PageDownMissingEntry | views/pager.go:167-168 | Paging down onto a page the map has no entry for writes the chapter's own start line. |
| Pager.Update | views/pager.go:126-237 | No contract of its own; `Pager.UpdateKeepsInv` states the invariant every event keeps, and the rows below state each branch. |
| Pager.PageUpStep | views/pager.go:142-156 | No contract of its own; `Pager.PageUpAtStart`, `Pager.PageUpThenDown` and `Pager.PrevChapterOpensAtEnd` state its behaviour. |
| Pager.PageDownStep | views/pager.go:157-171 | No contract of its own; `Pager.PageDownAtEnd`, `Pager.PageDownThenUp` and `Pager.NextChapterOpensAtTop` state its behaviour. |
| Pager.Resized | views/pager.go:183-193 | No contract of its own; `Pager.ResizeLaysOutOnce` states that the first resize shows `proc`'s text, takes its page total and map, and marks the pager ready. |
| Pager.ChapterAt | views/pager.go:146-147 | No contract of its own; `Shelf.OpenAt` states that the message carries `GetBookContent`'s title, content and index for a position, and `Pager.PageDownAtEnd` and `Pager.PageUpAtStart` state the messages paging past a chapter builds (views/pager.go:161-162, views/shelf.go:78-80). |
| Pager.ResizeStep | views/pager.go:180-204 | No contract of its own; `Pager.ResizeLaysOutOnce` states its behaviour. |
| Pager.LoadStep | views/pager.go:205-220 | No contract of its own; `Pager.LoadShowsPage`, `Pager.LoadWritesPosition` and `Pager.LoadAtEnd` state its behaviour. |
| Pager.Loaded | views/pager.go:209-220 | No contract of its own; `Pager.LoadWritesPosition` states what it shows and writes for a given layout. |
| Pager.Replay | views/pager.go:226-234 | No contract of its own; `Pager.MessagesReplayJump` states when it replays and what it leaves. |
| Pager.InitialInv | views/pager.go:78-80 | The initial globals satisfy the invariant: page 1 of 1, no pending jump. |
| Pager.UpdateKeepsInv | views/pager.go:126-237 | Every update keeps the current page within the chapter and leaves no jump above 1 pending. |
| Pager.PageDownThenUp | views/pager.go:152-171 | Inside a chapter, PageDown then PageUp restores the pager. Each key writes the chapter start plus the map entry of the page it lands on, and sends nothing. |
| Pager.PageUpThenDown | views/pager.go:142-171 | Inside a chapter, PageUp then PageDown restores the pager and writes the original page's position. |
| Pager.PageDownAtEnd | views/pager.go:157-166 | On the last page, PageDown asks for the next chapter exactly when one exists: its index, heading as title, its `ChapterContent` as content, and its heading line as the resume line. It leaves the pager unchanged and writes nothing. |
| Pager.PageUpAtStart | views/pager.go:142-151 | On page 1, PageUp asks to resume at the line before the current chapter exactly when not in the prelude. From chapter i >= 1 it asks for chapter i-1 with that chapter's heading and content. From chapter 0 it asks for the prelude (title "", the prelude's lines with two or more headings and "" with one), or for chapter 0 again with its own heading and content when that heading is line 0. It leaves the pager unchanged. |
| Pager.LoadShowsPage | views/pager.go:209-234 | Loading a chapter keeps the invariant and shows page offset/height + 1 for a resume offset inside the chapter, the last page when it is past the end, or page 1. |
| Pager.LoadWritesPosition | views/pager.go:209-220 | A load shows the message's chapter and title and sends nothing. It writes the resume line when positive. Otherwise it writes a line between the chapter start plus 1 and the chapter start plus its line count; `Pager.LoadUnfolds` gives the exact value. |
| Pager.LoadUnfolds | views/pager.go:209-220 | For a given layout, a load shows the message's chapter index and title, replays the layout's jump, sends nothing, and writes the resume line when positive and otherwise the chapter start plus the map entry of the current page. |
| Pager.LoadAtEnd | views/pager.go:205-234 | A load whose offset reaches past the chapter's lines, or whose body is empty, opens on the chapter's last page. |
| Pager.ChapterAtMarker | views/book.go:160-178 | Resuming at the line before marker i+1 resolves to chapter i, with that chapter's content and an offset one short of the distance between the markers. |
| Pager.LoadEmpty | views/pager.go:209-215 | An empty chapter body loads as a single page. |
| Pager.NextChapterOpensAtTop | views/pager.go:157-164 | The chapter PageDown asks for opens on its first page. |
| Pager.PrevChapterOpensAtEnd | views/pager.go:142-149 | The chapter PageUp asks for from chapter i >= 1 opens on its last page. |
| Pager.OtherKeysKeepPager | views/pager.go:136-178 | OpenDir, Quit and unbound keys leave the pager unchanged and write nothing. OpenDir asks for the chapter list at the current index, Quit returns to the shelf, and other keys send nothing. |
| Pager.MessagesReplayJump | views/pager.go:223-236 | A non-key message replays a pending jump above 1 as the current page and clears it. Otherwise the state is untouched. |
| Pager.ResizeLaysOutOnce | views/pager.go:180-204 | The first window size lays the text out from offset 0 for the window height less the margin. The text shown becomes the physical lines joined with "\n", the page count and page map become the layout's, page 1 is current, and the chapter index, title and pending jump stay. Later window sizes leave the pager as it was. |
| Shelf.GoDiv | views/shelf.go:132 | Division truncates toward zero: the remainder is smaller than the divisor in magnitude and has the dividend's sign. |
| Shelf.Progress | views/shelf.go:132-135 | Progress is at most 100, non-negative for a non-negative position in a book of at least two lines, 100 at or after the last line, and 0 at line 0. |
| Shelf.ProgressFloor | views/shelf.go:132 | Before the last line, progress is the floor of the exact percentage lastPos*100/(length-1). |
| Shelf.ProgressMonotone | views/shelf.go:132-135 | For a fixed book length of at least 2, progress never decreases as the position advances. |
| Shelf.QuotientsOrdered | views/shelf.go:132 | Go's truncating division by a positive divisor is monotone in the dividend, across zero too. |
| Shelf.ProgressExamples | views/shelf.go:132-135 | There is no lower clamp, so a negative position shows a negative percentage. A zero-length book divides by -1. Positions past the end are capped at 100. |
| Shelf.OpenAt | views/shelf.go:78-80 | Selecting a book sends its saved position unchanged, with the title, content and index `GetBookContent` resolves for it. Inside the book, the chapter's bracket [start, next start) holds the position, and no other chapter's bracket does. |
| Shelf.OpenResumes | views/shelf.go:70-81 | Opening a book at a saved position inside it shows page offset/height + 1, the offset counted in logical lines from its chapter's heading, and writes the position back when it is positive. |

## Left out

- The terminal UI is not modelled, as it is rendering with no bearing on the logic. This covers the viewport widget, its scrolling, header, footer, help, key-binding tables, styles and the "进度:%d%%" text.
- The SQLite catalog is a map from title to record, so I/O and database errors are not modelled beyond "title not found" and "title taken".
- Charset detection (`chardet`) and the GB18030 decoder are inputs: the detected charset name and a decoding function.
- `runewidth` is a per-character width function; its tables are external data.
- Strings are sequences of characters, while Go strings are bytes. A line that is not valid UTF-8 cannot be represented, for example the raw lines of a file detected as "UTF-16LE" that pass through undecoded. Invalid UTF-8 is outside the model.
- The heading regex is a predicate equal to the pattern's unanchored match; the regex engine is not modelled.
- The debouncer in `UpdateBookPos` is not modelled; every write is reported, because its delay depends on time.
- `DelBook` is not modelled, since it is file and catalog removal outside the reading core.
- Library.Base: models Unix `filepath.Base` only. On Windows, which the import view supports through its drive switch (views/import.go:99-104), `\` is a separator as well and the volume name (`C:`) is dropped, so importing `C:\books\x.txt` takes the title `x` there and `C:\books\x` here. The Windows path rules are a second platform's library and are not modelled.
- Library.PathProc: inherits `Library.Base`'s Unix-only separator handling, for the same reason.
- The `route` result of `PathProc` (`filepath.Dir`) is not modelled, because the importer discards it.
- Errors from creating the `download/` directory and writing the artifact are not modelled. Neither is the order of the catalog write and the file write: the import is atomic here.
- Library.ImportBook: the imported file comes in as its size and its already-split raw lines, since it is read with the same `bufio.Scanner` splitting that `Library.ScanLines` models for the artifact. The scanner's 64 KiB line limit is not modelled, on import or on open.
- Library.ImportBook: errors from opening the file, `chardet` and seeking are not modelled, as they come from the operating system and the detector.
- Layout.Proc: requires every character to fit in the window width minus 2, because otherwise the Go wrapping loop never terminates. It also requires a window width of at least 2: below that, Go's `maxWidth-2` is negative, and even an empty line is wider than it, so the loop never terminates either.
- Layout.Proc: requires a page height of at least 1. A height of 0 divides by zero in Go. A negative height runs without a panic: no padding, a page count of 0 or less and negative map keys. That case is excluded too, not modelled.
- Layout.Proc: returns the physical lines; the text handed to the viewport is their join with "\n".
- Pager.Update: sending several commands at once is merged into one `cmd`. Quit's shelf refresh plus view switch becomes `BackToShelf`, and OpenDir's two commands become `OpenDirList`.
- Pager.Update: the window size used for chapter loads (`winwidth`, `winheight`) and the header/footer height are fixed environment values. The view that updates them is not modelled.
- Shelf.Progress: does not model 64-bit overflow of `LastPos * 100`, which only matters for positions beyond 2^63/100.
- The `math.Floor(float64(offset)/float64(maxHeight))` of the resume page is integer division, which it equals for the positive operands it is used with.

=== FILE: arith.dfy ===
/** Integer division facts used by the page arithmetic. */
module Arith {

  lemma MulMonotone(a: int, b: int, d: int)
    requires a <= b && 0 <= d
    ensures a * d <= b * d
  {
    assert b * d - a * d == (b - a) * d;
  }

  lemma MulLower(d: int, height: int)
    requires 1 <= height && 1 <= d
    ensures d * height >= height
  {
    assert d * height == (d - 1) * height + height;
    assert (d - 1) * height >= 0;
  }

  /** Division by a positive height is determined by quotient and remainder. */
  lemma DivModUnique(a: int, height: int, q: int, r: int)
    requires 1 <= height && a == q * height + r && 0 <= r < height
    ensures a / height == q && a % height == r
  {
    var q', r' := a / height, a % height;
    assert a == q' * height + r';
    assert (q - q') * height == r' - r;
    if q - q' >= 1 {
      MulLower(q - q', height);
    } else if q' - q >= 1 {
      MulLower(q' - q, height);
    }
  }

  lemma MultiplesDiffer(a: int, b: int, height: int)
    requires 1 <= height
    requires 0 <= a < b
    requires a % height == 0 && b % height == 0
    ensures a / height < b / height
  {
    var p, q := a / height, b / height;
    assert a == p * height;
    assert b == q * height;
    if p >= q {
      MulLower(p - q + 1, height);
    }
  }

  /** A multiple of the height that is not k pages is not on page k. */
  lemma QuotientDiffers(c: int, height: int, k: int)
    requires 1 <= height
    requires c % height == 0 && c != k * height
    ensures c / height != k
  {
    assert c == (c / height) * height;
  }

  /** A whole number of pages is that many heights. */
  lemma ExactQuotient(a: int, height: int)
    requires 1 <= height && a % height == 0
    ensures a == (a / height) * height
  {
  }

  /** A position before the end of a text that fills p pages is on one of them. */
  lemma QuotientBelow(x: int, n: int, height: int, p: int)
    requires 1 <= height && 0 <= x < n && n <= p * height
    ensures 0 <= x / height < p
  {
    var q := x / height;
    assert x == q * height + x % height;
    if q >= p {
      MulLower(q - p + 1, height);
    }
  }

  /** A non-empty whole number of pages is at least one page. */
  lemma QuotientPositive(a: int, height: int)
    requires 1 <= height && 1 <= a && a % height == 0
    ensures a / height >= 1
  {
    ExactQuotient(a, height);
  }
}

=== FILE: chapters.dfy ===
/**
  Chapter indexing and position resolution (views/book.go): the heading
  pattern `第[一二三四五六七八九十百千万零〇0-9]+(章|卷)`, the marker table
  built when a book is opened, `GetChapterStart` and `GetBookContent`.

  The Go code keeps the opened book in package globals (`bookAll`,
  `bookDirs`); here the line sequence and the marker table are parameters.
 */
module Chapters {
  import opened Text

  /** `第`, the character that opens a heading. */
  const Ordinal: char := '第'

  predicate IsNumeral(c: char)
  {
    c in "一二三四五六七八九十百千万零〇0123456789"
  }

  /** `章` (chapter) or `卷` (volume). */
  predicate IsUnit(c: char)
  {
    c == '章' || c == '卷'
  }

  /** The heading pattern occurs in `line`, from the `第` at `i` to the unit glyph at `j`. */
  predicate HeadingAt(line: string, i: int, j: int)
  {
    && 0 <= i && i + 1 < j < |line|
    && line[i] == Ordinal
    && IsUnit(line[j])
    && forall k :: i < k < j ==> IsNumeral(line[k])
  }

  /** Unanchored match of the heading pattern anywhere in the line, as `regexp.MatchString` does. */
  predicate IsHeading(line: string)
  {
    exists i, j | 0 <= i && i + 1 < j < |line| :: HeadingAt(line, i, j)
  }

  /** A chapter marker: the heading line itself and its zero-based line number. */
  datatype Marker = Marker(name: string, start: int)

  /** A marker table that fits a document of `lineCount` lines, ordered by start. */
  predicate Indexed(ms: seq<Marker>, lineCount: int)
  {
    && 0 <= lineCount
    && (forall k :: 0 <= k < |ms| ==> 0 <= ms[k].start < lineCount)
    && (forall k, l :: 0 <= k < l < |ms| ==> ms[k].start < ms[l].start)
  }

  /** The scanning loop of `ProcBook`: one marker per heading line, in line order. */
  function IndexChapters(lines: seq<string>): (ms: seq<Marker>)
    ensures Indexed(ms, |lines|)
    ensures forall k :: 0 <= k < |ms| ==> ms[k].name == lines[ms[k].start] && IsHeading(ms[k].name)
    ensures forall n :: 0 <= n < |lines| && IsHeading(lines[n]) ==>
              exists k :: 0 <= k < |ms| && ms[k].start == n
  {
    if |lines| == 0 then []
    else
      var last := |lines| - 1;
      var prev := IndexChapters(lines[..last]);
      AppendedIndexed(prev, lines, last);
      AppendedNames(prev, lines, last);
      AppendedCovers(prev, lines, last);
      Appended(prev, lines, last)
  }

  /** The marker appended for line `last` when it is a heading. */
  function Appended(prev: seq<Marker>, lines: seq<string>, last: int): seq<Marker>
    requires 0 <= last < |lines|
  {
    if IsHeading(lines[last]) then prev + [Marker(lines[last], last)] else prev
  }

  /** Appending the marker of the last line keeps the table ordered and in range. */
  lemma AppendedIndexed(prev: seq<Marker>, lines: seq<string>, last: int)
    requires last == |lines| - 1 >= 0
    requires Indexed(prev, last)
    ensures Indexed(Appended(prev, lines, last), |lines|)
  {
    var ms := Appended(prev, lines, last);
    assert forall k :: 0 <= k < |prev| ==> ms[k] == prev[k];
  }

  /** Appending the marker of the last line keeps every marker naming its heading line. */
  lemma AppendedNames(prev: seq<Marker>, lines: seq<string>, last: int)
    requires last == |lines| - 1 >= 0
    requires forall k :: 0 <= k < |prev| ==> 0 <= prev[k].start < last
    requires forall k :: 0 <= k < |prev| ==> prev[k].name == lines[..last][prev[k].start] && IsHeading(prev[k].name)
    ensures var ms := Appended(prev, lines, last);
            forall k :: 0 <= k < |ms| ==> ms[k].name == lines[ms[k].start] && IsHeading(ms[k].name)
  {
    var ms := Appended(prev, lines, last);
    forall k | 0 <= k < |ms|
      ensures ms[k].name == lines[ms[k].start] && IsHeading(ms[k].name)
    {
      if k < |prev| {
        assert ms[k] == prev[k];
        assert lines[..last][prev[k].start] == lines[prev[k].start];
      }
    }
  }

  /** Appending the marker of the last line keeps every heading line marked. */
  lemma AppendedCovers(prev: seq<Marker>, lines: seq<string>, last: int)
    requires last == |lines| - 1 >= 0
    requires forall n :: 0 <= n < last && IsHeading(lines[..last][n]) ==>
               exists k :: 0 <= k < |prev| && prev[k].start == n
    ensures var ms := Appended(prev, lines, last);
            forall n :: 0 <= n < |lines| && IsHeading(lines[n]) ==> exists k :: 0 <= k < |ms| && ms[k].start == n
  {
    var ms := Appended(prev, lines, last);
    forall n | 0 <= n < |lines| && IsHeading(lines[n])
      ensures exists k :: 0 <= k < |ms| && ms[k].start == n
    {
      if n == last {
        assert ms[|prev|].start == n;
      } else {
        assert lines[..last][n] == lines[n];
        var k :| 0 <= k < |prev| && prev[k].start == n;
        assert ms[k] == prev[k];
      }
    }
  }




  /** `GetChapterStart`: the first line of chapter `index`, with 0 for the
      prelude (index -1) and the line count as the end sentinel. */
  function GetChapterStart(ms: seq<Marker>, lineCount: int, index: int): (r: int)
    ensures index < 0 ==> r == 0
    ensures 0 <= index < |ms| ==> r == ms[index].start
    ensures 0 <= |ms| <= index ==> r == lineCount
    ensures Indexed(ms, lineCount) ==> 0 <= r <= lineCount
  {
    if index < 0 then 0
    else if index >= |ms| then lineCount
    else ms[index].start
  }

  /** Chapter starts never decrease with the index, and strictly increase
      between -1 < i < j <= |ms|. */
  lemma ChapterStartMonotone(ms: seq<Marker>, lineCount: int, i: int, j: int)
    requires Indexed(ms, lineCount)
    requires i <= j
    ensures GetChapterStart(ms, lineCount, i) <= GetChapterStart(ms, lineCount, j)
    ensures 0 <= i < j <= |ms| ==> GetChapterStart(ms, lineCount, i) < GetChapterStart(ms, lineCount, j)
  {
  }

  /** The search loop of `GetBookContent`, from marker `i` on: the first
      marker whose range `[start, next.start)` holds `pos`, the last marker's
      range being unbounded above; -1 when there is none. */
  function FindChapter(ms: seq<Marker>, pos: int, i: int): (k: int)
    requires 0 <= i <= |ms|
    requires forall a, b :: 0 <= a < b < |ms| ==> ms[a].start < ms[b].start
    ensures k == -1 || i <= k < |ms|
    ensures k >= 0 ==> ms[k].start <= pos && (k + 1 < |ms| ==> pos < ms[k + 1].start)
    ensures k == -1 <==> i == |ms| || pos < ms[i].start
    decreases |ms| - i
  {
    if i == |ms| then -1
    else if pos >= ms[i].start && (i == |ms| - 1 || pos < ms[i + 1].start) then i
    else FindChapter(ms, pos, i + 1)
  }

  /** What `GetBookContent` returns: chapter title, body text and chapter index. */
  datatype Resolution = Resolution(title: string, content: string, index: int)

  /** The one slice of `GetBookContent` that can leave its range is the
      prelude's `bookAll[0:bookDirs[0].start-1]`; Go panics when the first
      heading is line 0 and the position is negative. */
  predicate PreludeInRange(ms: seq<Marker>, pos: int)
  {
    |ms| > 1 && pos < ms[0].start ==> ms[0].start >= 1
  }

  /** `GetBookContent`: the chapter holding absolute line `pos`, its title and its body. */
  function GetBookContent(lines: seq<string>, ms: seq<Marker>, pos: int): (r: Resolution)
    requires Indexed(ms, |lines|)
    requires PreludeInRange(ms, pos)
    ensures -1 <= r.index < |ms|
    ensures r.index == -1 <==> |ms| == 0 || pos < ms[0].start
    ensures r.index >= 0 ==>
              && ms[r.index].start <= pos
              && (r.index + 1 < |ms| ==> pos < ms[r.index + 1].start)
              && r.title == ms[r.index].name
    ensures r.index == -1 ==> r.title == ""
    ensures r.index == -1 && |ms| <= 1 ==> r.content == ""
    ensures r.index == -1 && |ms| > 1 ==> r.content == Join(lines[..ms[0].start - 1], NewLine)
    ensures r.index >= 0 ==> r.content == ChapterContent(lines, ms, r.index)
  {
    if |ms| > 1 && pos < ms[0].start then
      Resolution("", Join(lines[..ms[0].start - 1], NewLine), -1)
    else
      var i := FindChapter(ms, pos, 0);
      if i < 0 then Resolution("", "", -1)
      else
        Resolution(ms[i].name, ChapterContent(lines, ms, i), i)
  }

  /** The body `GetBookContent` returns for chapter i: the lines after its
      heading up to the next heading or the end, joined; "" for a chapter
      followed by another one with fewer than two body lines. */
  function ChapterContent(lines: seq<string>, ms: seq<Marker>, i: int): string
    requires Indexed(ms, |lines|)
    requires 0 <= i < |ms|
  {
    var start := ms[i].start;
    if i == |ms| - 1 then Join(lines[start + 1..], NewLine)
    else if start + 1 >= ms[i + 1].start - 1 then ""
    else Join(lines[start + 1..ms[i + 1].start], NewLine)
  }

  /** The resolved chapter brackets the position: chapter i starts at or
      before `pos`, and chapter i + 1 (or the end of the document) after it. */
  lemma ResolveBracketsPosition(lines: seq<string>, ms: seq<Marker>, pos: int)
    requires Indexed(ms, |lines|)
    requires PreludeInRange(ms, pos)
    ensures var i := GetBookContent(lines, ms, pos).index;
            && (i >= 0 || pos >= 0 ==> GetChapterStart(ms, |lines|, i) <= pos)
            && (pos < |lines| ==> pos < GetChapterStart(ms, |lines|, i + 1))
  {
  }

  /** Conversely, the chapter whose bracket holds `pos` is the one resolved. */
  lemma ResolveUnique(lines: seq<string>, ms: seq<Marker>, pos: int, j: int)
    requires Indexed(ms, |lines|)
    requires PreludeInRange(ms, pos)
    requires -1 <= j < |ms|
    requires GetChapterStart(ms, |lines|, j) <= pos < GetChapterStart(ms, |lines|, j + 1)
    ensures GetBookContent(lines, ms, pos).index == j
  {
    var i := GetBookContent(lines, ms, pos).index;
    if i < j {
      ChapterStartMonotone(ms, |lines|, i + 1, j);
    } else if j < i {
      ChapterStartMonotone(ms, |lines|, j + 1, i);
    }
  }

  /** Opening a chapter at its own heading line resolves to that chapter. */
  lemma ResolveMarkerStart(lines: seq<string>, ms: seq<Marker>, i: int)
    requires Indexed(ms, |lines|)
    requires 0 <= i < |ms|
    ensures PreludeInRange(ms, ms[i].start)
    ensures GetBookContent(lines, ms, ms[i].start).index == i
  {
    ResolveUnique(lines, ms, ms[i].start, i);
  }

  /** The body of a chapter with enough lines, as the pager splits it back
      into lines: exactly the lines strictly between the heading and the next
      heading (or the end of the document). */
  lemma ChapterBody(lines: seq<string>, ms: seq<Marker>, i: int)
    requires Indexed(ms, |lines|)
    requires NoSep(lines, NewLine)
    requires 0 <= i < |ms|
    requires GetChapterStart(ms, |lines|, i + 1) - ms[i].start >= if i == |ms| - 1 then 2 else 3
    ensures Split(ChapterContent(lines, ms, i), NewLine) == lines[ms[i].start + 1..GetChapterStart(ms, |lines|, i + 1)]
  {
    var e := GetChapterStart(ms, |lines|, i + 1);
    ChapterContentJoin(lines, ms, i);
    BodyOfSlice(lines, ms[i].start + 1, e);
  }

  /** A chapter before the last with at least one body line splits back
      into exactly the lines between its heading and the next; a shorter
      one has an empty body. */
  lemma ChapterLineCount(lines: seq<string>, ms: seq<Marker>, i: int)
    requires Indexed(ms, |lines|)
    requires NoSep(lines, NewLine)
    requires 0 <= i < |ms| - 1
    ensures var len := ms[i + 1].start - ms[i].start;
            var c := ChapterContent(lines, ms, i);
            && 1 <= len
            && (len >= 3 ==> |Split(c, NewLine)| == len - 1)
            && (len < 3 ==> c == "")
  {
    ChapterContentJoin(lines, ms, i);
    if ms[i + 1].start - ms[i].start >= 3 {
      ChapterBody(lines, ms, i);
    }
  }

  /** `ChapterContent` joins the lines from after the heading up to the next
      chapter start, when there are enough of them, and is "" otherwise: a
      chapter followed by another one needs at least two body lines, the
      last chapter at least one. */
  lemma ChapterContentJoin(lines: seq<string>, ms: seq<Marker>, i: int)
    requires Indexed(ms, |lines|)
    requires 0 <= i < |ms|
    ensures var s := ms[i].start;
            var e := GetChapterStart(ms, |lines|, i + 1);
            var least := if i == |ms| - 1 then 2 else 3;
            && s < e
            && (e - s >= least ==> ChapterContent(lines, ms, i) == Join(lines[s + 1..e], NewLine))
            && (e - s < least ==> ChapterContent(lines, ms, i) == "")
  {
    var s := ms[i].start;
    if i == |ms| - 1 {
      assert lines[s + 1..] == lines[s + 1..|lines|];
    }
  }

  /** A run of separator-free lines joined and split again is itself. */
  lemma BodyOfSlice(lines: seq<string>, a: int, b: int)
    requires 0 <= a < b <= |lines|
    requires NoSep(lines, NewLine)
    ensures Split(Join(lines[a..b], NewLine), NewLine) == lines[a..b]
  {
    SliceNoSep(lines, a, b);
    SplitJoin(lines[a..b], NewLine);
  }

  /** Before the first heading, and only when there are at least two
      headings, the prelude is returned as chapter -1 without the line just
      above the first heading; otherwise the result is empty. */
  lemma {:induction false} PreludeBody(lines: seq<string>, ms: seq<Marker>, pos: int)
    requires Indexed(ms, |lines|)
    requires PreludeInRange(ms, pos)
    requires NoSep(lines, NewLine)
    requires |ms| == 0 || pos < ms[0].start
    ensures var r := GetBookContent(lines, ms, pos);
            && r.index == -1 && r.title == ""
            && (|ms| > 1 && ms[0].start >= 2 ==> Split(r.content, NewLine) == lines[..ms[0].start - 1])
            && (|ms| <= 1 || ms[0].start < 2 ==> r.content == "")
  {
    if |ms| > 1 && ms[0].start >= 2 {
      SliceNoSep(lines, 0, ms[0].start - 1);
      SplitJoin(lines[..ms[0].start - 1], NewLine);
      assert lines[0..ms[0].start - 1] == lines[..ms[0].start - 1];
    }
  }

  lemma SliceNoSep(lines: seq<string>, a: int, b: int)
    requires 0 <= a < b <= |lines|
    requires NoSep(lines, NewLine)
    ensures NoSep(lines[a..b], NewLine) && |lines[a..b]| >= 1
  {
    assert forall k :: 0 <= k < b - a ==> lines[a..b][k] == lines[a + k];
  }

  /** The heading pattern matches anywhere in a line, needs at least one
      numeral, and accepts only 章 or 卷 after it. */
  lemma HeadingExamples()
    ensures IsHeading("第一章 开始")
    ensures IsHeading("正文 第12卷")
    ensures !IsHeading("第章")
    ensures !IsHeading("第一节")
  {
    assert HeadingAt("第一章 开始", 0, 2);
    assert HeadingAt("正文 第12卷", 3, 6);
    assert !IsNumeral('节');
  }

  /** Two chapters starting at lines 10 and 30 of a 50-line book: line 20 is
      in the first chapter, whose body is lines 11 to 29; line 5 is in the
      prelude, which is lines 0 to 8 (line 9 is dropped). */
  lemma ResolveExample(lines: seq<string>)
    requires |lines| == 50
    ensures var ms := [Marker("Ch1", 10), Marker("Ch2", 30)];
            && GetBookContent(lines, ms, 20) == Resolution("Ch1", Join(lines[11..30], NewLine), 0)
            && GetBookContent(lines, ms, 5) == Resolution("", Join(lines[0..9], NewLine), -1)
  {
    var ms := [Marker("Ch1", 10), Marker("Ch2", 30)];
    assert Indexed(ms, 50);
    assert lines[..9] == lines[0..9];
  }
}

=== FILE: layout.dfy ===
/**
  Page layout of a chapter body (`proc` in views/pager.go): split the body
  into logical lines, wrap each by display width, pad to whole pages, record
  the page -> line-offset map and compute the page to resume on.

  The package globals `pageTotal`, `currentPage`, `jump` and `posMapOffset`
  are the explicit `PagerState`, taken and returned. Display width is a
  per-character width function `w` instead of `runewidth`'s tables.
 */
module Layout {
  import opened Text
  import opened Arith

  /** The pager's former globals. `posMapOffset` is never cleared: keys from
      earlier layouts survive unless overwritten. */
  datatype PagerState = PagerState(pageTotal: int, currentPage: int, jump: int, posMapOffset: map<int, int>)

  /** The values the globals start with. */
  const InitialState: PagerState := PagerState(1, 1, 0, map[])

  // ---------------------------------------------------------------------------
  // Display width and truncation
  // ---------------------------------------------------------------------------

  /** `runewidth.StringWidth`: the sum of the characters' widths. */
  function StringWidth(w: char -> nat, s: string): nat
  {
    if |s| == 0 then 0 else w(s[0]) + StringWidth(w, s[1..])
  }

  /** Every character of `s` is at most `maxW` cells wide. */
  predicate Fits(w: char -> nat, s: string, maxW: int)
  {
    forall k :: 0 <= k < |s| ==> w(s[k]) <= maxW
  }

  /** `runewidth.Truncate(s, budget, "")`: the prefix that stops before the
      first character that would overflow `budget`. */
  function Truncate(w: char -> nat, s: string, budget: int): (t: string)
    ensures t <= s
    ensures budget >= 0 ==> StringWidth(w, t) <= budget
    ensures t == s || StringWidth(w, s[..|t| + 1]) > budget
    ensures |s| > 0 && w(s[0]) <= budget ==> t != ""
  {
    if |s| == 0 || w(s[0]) > budget then ""
    else
      var t := [s[0]] + Truncate(w, s[1..], budget - w(s[0]));
      assert s == [s[0]] + s[1..];
      assert t != s ==> s[..|t| + 1] == [s[0]] + s[1..][..|t|];
      t
  }

  /** `strings.TrimPrefix`. */
  function TrimPrefix(s: string, prefix: string): (r: string)
    ensures prefix <= s ==> prefix + r == s
    ensures !(prefix <= s) ==> r == s
  {
    if prefix <= s then s[|prefix|..] else s
  }

  // ---------------------------------------------------------------------------
  // Wrapping
  // ---------------------------------------------------------------------------

  /** The width of a string is the sum of its characters' widths, so the
      widths of two strings add up when they are joined. */
  lemma {:induction false} StringWidthConcat(w: char -> nat, a: string, b: string)
    ensures StringWidth(w, a + b) == StringWidth(w, a) + StringWidth(w, b)
    decreases |a|
  {
    if |a| > 0 {
      assert (a + b)[1..] == a[1..] + b;
      StringWidthConcat(w, a[1..], b);
    } else {
      assert a + b == b;
    }
  }

  lemma WidthOfPrefix(w: char -> nat, s: string, t: string)
    requires t <= s
    ensures StringWidth(w, t) <= StringWidth(w, s)
    decreases |t|
  {
    if |t| > 0 {
      WidthOfPrefix(w, s[1..], t[1..]);
    }
  }

  /** The inner loop of `proc` on one logical line: cut the longest fitting
      prefix while the rest is too wide, then emit what is left. */
  function Wrap(w: char -> nat, line: string, maxW: int): (pieces: seq<string>)
    requires 0 <= maxW
    requires Fits(w, line, maxW)
    ensures |pieces| >= 1
    ensures Concat(pieces) == line
    ensures forall k :: 0 <= k < |pieces| ==> StringWidth(w, pieces[k]) <= maxW
    decreases |line|
  {
    if StringWidth(w, line) > maxW then
      var cut := Truncate(w, line, maxW);
      var rest := TrimPrefix(line, cut);
      CutIsProper(w, line, maxW);
      var tail := Wrap(w, rest, maxW);
      PrependPiece(w, cut, tail, maxW);
      [cut] + tail
    else [line]
  }

  /** A cut that fits, put before pieces that fit, gives pieces that fit
      and concatenate to the cut followed by the rest. */
  lemma PrependPiece(w: char -> nat, cut: string, tail: seq<string>, maxW: int)
    requires StringWidth(w, cut) <= maxW
    requires forall k :: 0 <= k < |tail| ==> StringWidth(w, tail[k]) <= maxW
    ensures Concat([cut] + tail) == cut + Concat(tail)
    ensures forall k :: 0 <= k < |tail| + 1 ==> StringWidth(w, ([cut] + tail)[k]) <= maxW
  {
    ConcatAppend([cut], tail);
    assert Concat([cut]) == cut by {
      assert [cut][..0] == [];
    }
    forall k | 1 <= k < |tail| + 1
      ensures StringWidth(w, ([cut] + tail)[k]) <= maxW
    {
      assert ([cut] + tail)[k] == tail[k - 1];
    }
  }

  /** While the line is too wide, the cut is a non-empty proper prefix, and
      the trim removes exactly it. */
  lemma CutIsProper(w: char -> nat, line: string, maxW: int)
    requires 0 <= maxW
    requires Fits(w, line, maxW)
    requires StringWidth(w, line) > maxW
    ensures var cut := Truncate(w, line, maxW);
            var rest := TrimPrefix(line, cut);
            && 0 < |cut| < |line|
            && rest == line[|cut|..]
            && line == cut + rest
            && Fits(w, rest, maxW)
            && StringWidth(w, cut + [rest[0]]) > maxW
  {
    var cut := Truncate(w, line, maxW);
    var rest := line[|cut|..];
    assert line == cut + rest;
    assert line[..|cut| + 1] == cut + [rest[0]];
  }

  /** Greedy cuts: every piece but the last is followed by a non-empty piece
      whose first character would not have fitted on it. */
  lemma {:induction false} WrapGreedy(w: char -> nat, line: string, maxW: int, k: int)
    requires 0 <= maxW
    requires Fits(w, line, maxW)
    requires 0 <= k < |Wrap(w, line, maxW)| - 1
    ensures var pieces := Wrap(w, line, maxW);
            pieces[k + 1] != "" && StringWidth(w, pieces[k] + [pieces[k + 1][0]]) > maxW
    decreases |line|
  {
    var pieces := Wrap(w, line, maxW);
    if StringWidth(w, line) > maxW {
      var cut := Truncate(w, line, maxW);
      var rest := TrimPrefix(line, cut);
      CutIsProper(w, line, maxW);
      var tail := Wrap(w, rest, maxW);
      assert pieces == [cut] + tail;
      assert pieces[k + 1] == tail[k];
      if k == 0 {
        WrapStartsWith(w, rest, maxW);
        assert pieces[0] + [pieces[1][0]] == cut + [rest[0]];
      } else {
        assert pieces[k] == tail[k - 1];
        WrapGreedy(w, rest, maxW, k - 1);
      }
    }
  }

  /** The first piece of a non-empty line starts with the line's first character. */
  lemma WrapStartsWith(w: char -> nat, line: string, maxW: int)
    requires 0 <= maxW
    requires Fits(w, line, maxW)
    requires line != ""
    ensures Wrap(w, line, maxW)[0] != "" && Wrap(w, line, maxW)[0][0] == line[0]
  {
    if StringWidth(w, line) > maxW {
      CutIsProper(w, line, maxW);
    }
  }

  /** All logical lines fit character by character. */
  predicate AllFit(w: char -> nat, lines: seq<string>, maxW: int)
  {
    forall i :: 0 <= i < |lines| ==> Fits(w, lines[i], maxW)
  }

  /** The physical lines emitted for the first `|lines|` logical lines. */
  function Wrapped(w: char -> nat, lines: seq<string>, maxW: int): (phys: seq<string>)
    requires 0 <= maxW
    requires AllFit(w, lines, maxW)
    ensures |phys| >= |lines|
  {
    if |lines| == 0 then []
    else
      var init := lines[..|lines| - 1];
      assert AllFit(w, init, maxW) by {
        assert forall i :: 0 <= i < |init| ==> init[i] == lines[i];
      }
      var prev := Wrapped(w, init, maxW);
      var last := Wrap(w, lines[|lines| - 1], maxW);
      prev + last
  }

  /** Every physical line is at most `maxW` cells wide. */
  lemma {:induction false} WrappedWidths(w: char -> nat, lines: seq<string>, maxW: int, k: int)
    requires 0 <= maxW
    requires AllFit(w, lines, maxW)
    requires 0 <= k < |Wrapped(w, lines, maxW)|
    ensures StringWidth(w, Wrapped(w, lines, maxW)[k]) <= maxW
    decreases |lines|
  {
    var n := |lines|;
    var init := lines[..n - 1];
    assert AllFit(w, init, maxW) by {
      assert forall i :: 0 <= i < |init| ==> init[i] == lines[i];
    }
    var prev := Wrapped(w, init, maxW);
    var last := Wrap(w, lines[n - 1], maxW);
    assert lines[..n] == lines;
    WrappedStep(w, lines, maxW, n - 1);
    if k < |prev| {
      WrappedWidths(w, init, maxW, k);
    } else {
      assert (prev + last)[k] == last[k - |prev|];
    }
  }

  /** Wrapping one more logical line appends exactly its pieces. */
  lemma WrappedStep(w: char -> nat, lines: seq<string>, maxW: int, t: int)
    requires 0 <= maxW
    requires AllFit(w, lines, maxW)
    requires 0 <= t < |lines|
    ensures Wrapped(w, lines[..t + 1], maxW) == Wrapped(w, lines[..t], maxW) + Wrap(w, lines[t], maxW)
  {
    assert lines[..t + 1][..t] == lines[..t];
  }

  /** The physical-line count grows strictly with every logical line, and
      earlier output is never rewritten. */
  lemma {:induction false} WrappedGrows(w: char -> nat, lines: seq<string>, maxW: int, t: int, u: int)
    requires 0 <= maxW
    requires AllFit(w, lines, maxW)
    requires 0 <= t <= u <= |lines|
    ensures Wrapped(w, lines[..t], maxW) <= Wrapped(w, lines[..u], maxW)
    ensures |Wrapped(w, lines[..t], maxW)| + (u - t) <= |Wrapped(w, lines[..u], maxW)|
    decreases u - t
  {
    if t < u {
      WrappedGrows(w, lines, maxW, t, u - 1);
      WrappedStep(w, lines, maxW, u - 1);
    }
  }

  /** Lossless wrapping: the pieces emitted for logical line t sit right
      after those of the lines before it and concatenate back to line t. */
  lemma WrappedPieces(w: char -> nat, lines: seq<string>, maxW: int, t: int)
    requires 0 <= maxW
    requires AllFit(w, lines, maxW)
    requires 0 <= t < |lines|
    ensures var a := |Wrapped(w, lines[..t], maxW)|;
            var b := |Wrapped(w, lines[..t + 1], maxW)|;
            && a < b <= |Wrapped(w, lines, maxW)|
            && Wrapped(w, lines, maxW)[a..b] == Wrap(w, lines[t], maxW)
            && Concat(Wrapped(w, lines, maxW)[a..b]) == lines[t]
  {
    WrappedStep(w, lines, maxW, t);
    WrappedGrows(w, lines, maxW, t + 1, |lines|);
    assert lines[..|lines|] == lines;
    var prev := Wrapped(w, lines[..t], maxW);
    var next := Wrapped(w, lines[..t + 1], maxW);
    assert next[|prev|..] == Wrap(w, lines[t], maxW);
    assert Wrapped(w, lines, maxW)[..|next|] == next;
  }

  // ---------------------------------------------------------------------------
  // Page map
  // ---------------------------------------------------------------------------

  lemma AllFitPrefix(w: char -> nat, lines: seq<string>, maxW: int, t: int)
    requires AllFit(w, lines, maxW)
    requires 0 <= t <= |lines|
    ensures AllFit(w, lines[..t], maxW)
  {
    assert forall i :: 0 <= i < t ==> lines[..t][i] == lines[i];
  }

  /** The physical-line count after the first t logical lines. */
  function Count(w: char -> nat, lines: seq<string>, maxW: int, t: int): (c: nat)
    requires 0 <= maxW
    requires AllFit(w, lines, maxW)
    requires 0 <= t <= |lines|
  {
    AllFitPrefix(w, lines, maxW, t);
    |Wrapped(w, lines[..t], maxW)|
  }

  /** The count after all lines is the length of the wrapped output, and it
      grows strictly with every logical line. */
  lemma CountGrows(w: char -> nat, lines: seq<string>, maxW: int, t: int, u: int)
    requires 0 <= maxW
    requires AllFit(w, lines, maxW)
    requires 0 <= t <= u <= |lines|
    ensures Count(w, lines, maxW, t) + (u - t) <= Count(w, lines, maxW, u)
    ensures Count(w, lines, maxW, |lines|) == |Wrapped(w, lines, maxW)|
  {
    WrappedGrows(w, lines, maxW, t, u);
    assert lines[..|lines|] == lines;
  }

  /** The running value of `len(newLines)` in the layout loop: entry t is the
      physical-line count after the first t logical lines. */
  function Counts(w: char -> nat, lines: seq<string>, maxW: int): (cs: seq<nat>)
    requires 0 <= maxW
    requires AllFit(w, lines, maxW)
    ensures |cs| == |lines| + 1
  {
    seq(|lines| + 1, t requires 0 <= t <= |lines| => Count(w, lines, maxW, t))
  }

  predicate Increasing(cs: seq<int>)
  {
    forall i, j :: 0 <= i < j < |cs| ==> cs[i] < cs[j]
  }

  /** Every logical line adds at least one physical line. */
  lemma CountsIncrease(w: char -> nat, lines: seq<string>, maxW: int)
    requires 0 <= maxW
    requires AllFit(w, lines, maxW)
    ensures Increasing(Counts(w, lines, maxW))
  {
    var cs := Counts(w, lines, maxW);
    forall i, j | 0 <= i < j < |cs|
      ensures cs[i] < cs[j]
    {
      CountGrows(w, lines, maxW, i, j);
    }
  }

  /** The map updates of the layout loop over the first t logical lines,
      given the running counts: whenever line t (one-based) brings the count
      to a multiple of the page height, that page is mapped to t. */
  function Marks(cs: seq<int>, height: int, m: map<int, int>, t: int): map<int, int>
    requires 1 <= height
    requires 0 <= t < |cs|
  {
    if t == 0 then m
    else
      var prev := Marks(cs, height, m, t - 1);
      var c := cs[t];
      if c % height == 0 then prev[c / height := t] else prev
  }

  /** One step of the map updates: line n sets the entry of page k exactly
      when it brings the count to k pages; every other entry is untouched. */
  lemma MarksStep(cs: seq<int>, height: int, m: map<int, int>, n: int, k: int)
    requires 1 <= height
    requires 1 <= n < |cs|
    ensures var r := Marks(cs, height, m, n);
            var prev := Marks(cs, height, m, n - 1);
            var hit := cs[n] % height == 0 && cs[n] / height == k;
            && (hit ==> k in r && r[k] == n)
            && (!hit ==> (k in r <==> k in prev) && (k in prev ==> r[k] == prev[k]))
  {
  }

  /** Every page boundary that falls on the end of a logical line is recorded. */
  lemma {:induction false} MarksSets(cs: seq<int>, height: int, m: map<int, int>, n: int, t: int)
    requires 1 <= height
    requires 1 <= t <= n < |cs|
    requires Increasing(cs) && 0 <= cs[0]
    requires cs[t] % height == 0
    ensures var k := cs[t] / height;
            var r := Marks(cs, height, m, n);
            k in r && r[k] == t
    decreases n
  {
    var k := cs[t] / height;
    MarksStep(cs, height, m, n, k);
    if t < n {
      MarksSets(cs, height, m, n - 1, t);
      if cs[n] % height == 0 {
        MultiplesDiffer(cs[t], cs[n], height);
      }
    }
  }

  /** A page whose boundary never coincides with the end of a logical line
      keeps whatever the map held before. */
  lemma {:induction false} MarksKeeps(cs: seq<int>, height: int, m: map<int, int>, n: int, k: int)
    requires 1 <= height
    requires 0 <= n < |cs|
    requires forall t :: 1 <= t <= n ==> cs[t] != k * height
    ensures var r := Marks(cs, height, m, n);
            && (k in r <==> k in m)
            && (k in m ==> r[k] == m[k])
    decreases n
  {
    if n > 0 {
      MarksKeeps(cs, height, m, n - 1, k);
      MarksStep(cs, height, m, n, k);
      if cs[n] % height == 0 {
        QuotientDiffers(cs[n], height, k);
      }
    }
  }

  // ---------------------------------------------------------------------------
  // proc
  // ---------------------------------------------------------------------------

  /** n blank lines. */
  function Blank(n: nat): (r: seq<string>)
    ensures |r| == n
    ensures forall k :: 0 <= k < n ==> r[k] == ""
  {
    if n == 0 then [] else Blank(n - 1) + [""]
  }

  /** Blank physical lines appended until the count is a whole number of pages. */
  function Pad(phys: seq<string>, height: int): (padded: seq<string>)
    requires 1 <= height
    ensures |padded| % height == 0
    ensures |phys| <= |padded| < |phys| + height
    ensures padded[..|phys|] == phys
    ensures forall k :: |phys| <= k < |padded| ==> padded[k] == ""
  {
    var ac := |phys| % height;
    if ac != 0 then
      var padded := phys + Blank(height - ac);
      var q := |phys| / height;
      DivModUnique(|padded|, height, q + 1, 0);
      padded
    else phys
  }

  lemma SplitFits(w: char -> nat, content: string, maxW: int)
    requires Fits(w, content, maxW)
    ensures AllFit(w, Split(content, NewLine), maxW)
  {
    var lines := Split(content, NewLine);
    SplitPieces(content, NewLine);
    forall i, k | 0 <= i < |lines| && 0 <= k < |lines[i]|
      ensures w(lines[i][k]) <= maxW
    {
      JoinContains(lines, NewLine, i, lines[i][k]);
    }
  }

  /** The result of `proc`: the padded physical lines (joined by "\n" they
      are the text put in the viewport) and the updated pager state. */
  datatype Laid = Laid(physical: seq<string>, state: PagerState)

  /** The one-based page on which zero-based index `offset` falls on pages
      of `height` lines, counted a page at a time. `proc` computes it as
      `math.Floor(offset / height) + 1`; `PageOfDiv` shows they agree. */
  function PageOf(offset: nat, height: int): (k: int)
    requires 1 <= height
    ensures k >= 1
    decreases offset
  {
    if offset < height then 1 else PageOf(offset - height, height) + 1
  }

  /** Counting pages is floor division plus one. */
  lemma {:induction false} PageOfDiv(offset: nat, height: int)
    requires 1 <= height
    ensures PageOf(offset, height) == offset / height + 1
    decreases offset
  {
    if offset >= height {
      var rest := offset - height;
      PageOfDiv(rest, height);
      var q, r := rest / height, rest % height;
      assert offset == (q + 1) * height + r;
      DivModUnique(offset, height, q + 1, r);
    }
  }

  /** The page `proc` asks the pager to jump to for an offset measured from
      the chapter's heading line: page offset / height + 1 when the offset
      lies inside the chapter, the last page when it lies past the end, and
      the previous request otherwise. The offset counts the heading as line
      0 while the body starts after it, and pages are counted in logical
      rather than wrapped lines, so this is the page of body line `offset`,
      the line after the resume line. */
  function JumpTo(offset: int, lineCount: int, height: int, pageTotal: int, previous: int): (j: int)
    requires 1 <= height && lineCount <= pageTotal * height
    ensures 0 < offset < lineCount ==> j == PageOf(offset, height) && 1 <= j <= pageTotal
    ensures offset >= lineCount ==> j == pageTotal
    ensures offset <= 0 && offset < lineCount ==> j == previous
  {
    if offset > 0 && offset < lineCount then
      PageOfDiv(offset, height);
      QuotientBelow(offset, lineCount, height, pageTotal);
      PageOf(offset, height)
    else if offset >= lineCount then pageTotal
    else previous
  }

  /** The logical lines of a chapter body. */
  function Lines(content: string): seq<string>
  {
    Split(content, NewLine)
  }

  /** `proc(content, maxWidth, maxHeight, offset)`. The width loop only ends
      when every character fits in `maxWidth - 2` cells, so that is required. */
  function Proc(w: char -> nat, content: string, maxWidth: int, maxHeight: int, offset: int, st: PagerState): (r: Laid)
    requires 2 <= maxWidth && 1 <= maxHeight
    requires Fits(w, content, maxWidth - 2)
    ensures var n := |Lines(content)|;
            && r.state.pageTotal >= 1
            && |r.physical| % maxHeight == 0
            && r.state.pageTotal == |r.physical| / maxHeight
            && n <= |r.physical|
            && r.state.currentPage == 1
            && r.state.pageTotal in r.state.posMapOffset
            && r.state.posMapOffset[r.state.pageTotal] == n
            && (0 < offset < n ==> r.state.jump == PageOf(offset, maxHeight) && 1 <= r.state.jump <= r.state.pageTotal)
            && (offset >= n ==> r.state.jump == r.state.pageTotal)
            && (offset <= 0 ==> r.state.jump == st.jump)
  {
    var maxW := maxWidth - 2;
    var lines := Lines(content);
    SplitFits(w, content, maxW);
    var phys := Wrapped(w, lines, maxW);
    var m := Marks(Counts(w, lines, maxW), maxHeight, st.posMapOffset[1 := 1], |lines|);
    var padded := Pad(phys, maxHeight);
    var pageTotal := |padded| / maxHeight;
    ExactQuotient(|padded|, maxHeight);
    QuotientPositive(|padded|, maxHeight);
    var jump := JumpTo(offset, |lines|, maxHeight, pageTotal, st.jump);
    Laid(padded, PagerState(pageTotal, 1, jump, m[pageTotal := |lines|]))
  }

  /** The physical-line count of a chapter body laid out in a viewport
      `maxWidth` cells wide, after its first t logical lines. */
  function PhysCount(w: char -> nat, content: string, maxWidth: int, t: int): nat
    requires 2 <= maxWidth
    requires Fits(w, content, maxWidth - 2)
    requires 0 <= t <= |Lines(content)|
  {
    SplitFits(w, content, maxWidth - 2);
    Count(w, Lines(content), maxWidth - 2, t)
  }

  /** The laid-out text is the wrapped lines followed by fewer than one page of blank lines. */
  lemma ProcPhysical(w: char -> nat, content: string, maxWidth: int, maxHeight: int, offset: int, st: PagerState)
    requires 2 <= maxWidth && 1 <= maxHeight
    requires Fits(w, content, maxWidth - 2)
    ensures var r := Proc(w, content, maxWidth, maxHeight, offset, st);
            var c := PhysCount(w, content, maxWidth, |Lines(content)|);
            && c <= |r.physical| < c + maxHeight
            && (forall k :: c <= k < |r.physical| ==> r.physical[k] == "")
  {
    var lines := Lines(content);
    SplitFits(w, content, maxWidth - 2);
    CountGrows(w, lines, maxWidth - 2, 0, |lines|);
  }

  /** No physical line is wider than the viewport minus its two-cell margin. */
  lemma ProcWidths(w: char -> nat, content: string, maxWidth: int, maxHeight: int, offset: int, st: PagerState, k: int)
    requires 2 <= maxWidth && 1 <= maxHeight
    requires Fits(w, content, maxWidth - 2)
    requires 0 <= k < |Proc(w, content, maxWidth, maxHeight, offset, st).physical|
    ensures StringWidth(w, Proc(w, content, maxWidth, maxHeight, offset, st).physical[k]) <= maxWidth - 2
  {
    var lines := Lines(content);
    var maxW := maxWidth - 2;
    SplitFits(w, content, maxW);
    var phys := Wrapped(w, lines, maxW);
    if k < |phys| {
      WrappedWidths(w, lines, maxW, k);
    }
  }

  /** Layout loses nothing: the physical lines emitted for logical line t
      sit between the counts before and after it and concatenate back to it. */
  lemma ProcKeepsLine(w: char -> nat, content: string, maxWidth: int, maxHeight: int, offset: int, st: PagerState, t: int)
    requires 2 <= maxWidth && 1 <= maxHeight
    requires Fits(w, content, maxWidth - 2)
    requires 0 <= t < |Lines(content)|
    ensures var r := Proc(w, content, maxWidth, maxHeight, offset, st);
            var a := PhysCount(w, content, maxWidth, t);
            var b := PhysCount(w, content, maxWidth, t + 1);
            && a < b <= |r.physical|
            && Concat(r.physical[a..b]) == Lines(content)[t]
  {
    var lines := Lines(content);
    var maxW := maxWidth - 2;
    SplitFits(w, content, maxW);
    var phys := Wrapped(w, lines, maxW);
    var r := Proc(w, content, maxWidth, maxHeight, offset, st);
    WrappedPieces(w, lines, maxW, t);
    AllFitPrefix(w, lines, maxW, t);
    AllFitPrefix(w, lines, maxW, t + 1);
    var a := |Wrapped(w, lines[..t], maxW)|;
    var b := |Wrapped(w, lines[..t + 1], maxW)|;
    assert r.physical == Pad(phys, maxHeight);
    SliceOfPrefix(r.physical, phys, a, b);
  }

  lemma SliceOfPrefix(s: seq<string>, p: seq<string>, a: int, b: int)
    requires p <= s
    requires 0 <= a <= b <= |p|
    ensures s[a..b] == p[a..b]
  {
  }

  /** Every page boundary that falls on the end of logical line t (one-based)
      maps that page to t, including the last page. */
  lemma ProcMapsBoundary(w: char -> nat, content: string, maxWidth: int, maxHeight: int, offset: int, st: PagerState, t: int)
    requires 2 <= maxWidth && 1 <= maxHeight
    requires Fits(w, content, maxWidth - 2)
    requires 1 <= t <= |Lines(content)|
    requires PhysCount(w, content, maxWidth, t) % maxHeight == 0
    ensures var r := Proc(w, content, maxWidth, maxHeight, offset, st);
            var k := PhysCount(w, content, maxWidth, t) / maxHeight;
            k in r.state.posMapOffset && r.state.posMapOffset[k] == t
  {
    var lines := Lines(content);
    var n := |lines|;
    var maxW := maxWidth - 2;
    SplitFits(w, content, maxW);
    var r := Proc(w, content, maxWidth, maxHeight, offset, st);
    var a := Count(w, lines, maxW, t);
    var k := a / maxHeight;
    var cs := Counts(w, lines, maxW);
    CountsIncrease(w, lines, maxW);
    MarksSets(cs, maxHeight, st.posMapOffset[1 := 1], n, t);
    if t < n {
      ProcPhysical(w, content, maxWidth, maxHeight, offset, st);
      CountGrows(w, lines, maxW, t, n);
      MultiplesDiffer(a, |r.physical|, maxHeight);
    }
  }

  /** A page whose boundary ends no logical line keeps its earlier entry;
      page 1 always maps to line 1, the line after the chapter title. */
  lemma ProcMapsOthers(w: char -> nat, content: string, maxWidth: int, maxHeight: int, offset: int, st: PagerState, k: int)
    requires 2 <= maxWidth && 1 <= maxHeight
    requires Fits(w, content, maxWidth - 2)
    requires k != Proc(w, content, maxWidth, maxHeight, offset, st).state.pageTotal
    requires forall t :: 1 <= t <= |Lines(content)| ==> PhysCount(w, content, maxWidth, t) != k * maxHeight
    ensures var m := Proc(w, content, maxWidth, maxHeight, offset, st).state.posMapOffset;
            && (k in m <==> k == 1 || k in st.posMapOffset)
            && (k == 1 ==> m[k] == 1)
            && (k != 1 && k in m ==> m[k] == st.posMapOffset[k])
  {
    var lines := Lines(content);
    var maxW := maxWidth - 2;
    SplitFits(w, content, maxW);
    var cs := Counts(w, lines, maxW);
    forall t | 1 <= t <= |lines|
      ensures cs[t] != k * maxHeight
    {
      assert PhysCount(w, content, maxWidth, t) != k * maxHeight;
    }
    MarksKeeps(cs, maxHeight, st.posMapOffset[1 := 1], |lines|, k);
  }

  /** Page 1 always has an entry after a layout, and it names a line of the chapter. */
  lemma ProcFirstPage(w: char -> nat, content: string, maxWidth: int, maxHeight: int, offset: int, st: PagerState)
    requires 2 <= maxWidth && 1 <= maxHeight
    requires Fits(w, content, maxWidth - 2)
    ensures var m := Proc(w, content, maxWidth, maxHeight, offset, st).state.posMapOffset;
            1 in m && 1 <= m[1] <= |Lines(content)|
  {
    var r := Proc(w, content, maxWidth, maxHeight, offset, st);
    var n := |Lines(content)|;
    if r.state.pageTotal != 1 {
      if t :| 1 <= t <= n && PhysCount(w, content, maxWidth, t) == maxHeight {
        ProcMapsBoundary(w, content, maxWidth, maxHeight, offset, st, t);
      } else {
        ProcMapsOthers(w, content, maxWidth, maxHeight, offset, st, 1);
      }
    }
  }

  /** An empty chapter body is one page long. */
  lemma ProcEmpty(w: char -> nat, content: string, maxWidth: int, maxHeight: int, offset: int, st: PagerState)
    requires 2 <= maxWidth && 1 <= maxHeight
    requires content == ""
    ensures Fits(w, content, maxWidth - 2)
    ensures Lines(content) == [""]
    ensures Proc(w, content, maxWidth, maxHeight, offset, st).state.pageTotal == 1
  {
    LinesOfEmpty(content);
    var maxW := maxWidth - 2;
    SplitFits(w, content, maxW);
    WrappedBlank(w, Lines(content), maxW);
    PadOneLine(maxHeight);
  }

  lemma LinesOfEmpty(content: string)
    requires content == ""
    ensures Lines(content) == [""]
  {
    assert IndexOf(content, NewLine) == -1;
  }

  lemma WrappedBlank(w: char -> nat, lines: seq<string>, maxW: int)
    requires 0 <= maxW
    requires lines == [""]
    ensures AllFit(w, lines, maxW)
    ensures Wrapped(w, lines, maxW) == [""]
  {
    assert StringWidth(w, "") == 0;
    assert Wrap(w, "", maxW) == [""];
    assert lines[..0] == [];
  }

  /** One line pads to a single page. */
  lemma PadOneLine(height: int)
    requires 1 <= height
    ensures |Pad([""], height)| == height
    ensures |Pad([""], height)| / height == 1
  {
    DivModUnique(height, height, 1, 0);
  }


  /** Lines that already fit are emitted unchanged, one physical line each. */
  lemma {:induction false} WrappedNarrow(w: char -> nat, lines: seq<string>, maxW: int)
    requires 0 <= maxW
    requires AllFit(w, lines, maxW)
    requires forall i :: 0 <= i < |lines| ==> StringWidth(w, lines[i]) <= maxW
    ensures Wrapped(w, lines, maxW) == lines
  {
    if |lines| > 0 {
      var init := lines[..|lines| - 1];
      AllFitPrefix(w, lines, maxW, |lines| - 1);
      WrappedNarrow(w, init, maxW);
      assert Wrap(w, lines[|lines| - 1], maxW) == [lines[|lines| - 1]];
      assert init + [lines[|lines| - 1]] == lines;
    }
  }

  /** When no line needs wrapping, the count after t lines is t. */
  lemma CountNarrow(w: char -> nat, lines: seq<string>, maxW: int, t: int)
    requires 0 <= maxW
    requires AllFit(w, lines, maxW)
    requires forall i :: 0 <= i < |lines| ==> StringWidth(w, lines[i]) <= maxW
    requires 0 <= t <= |lines|
    ensures Count(w, lines, maxW, t) == t
  {
    AllFitPrefix(w, lines, maxW, t);
    assert forall i :: 0 <= i < t ==> lines[..t][i] == lines[i];
    WrappedNarrow(w, lines[..t], maxW);
  }

  /** When no line needs wrapping, the position the pager writes for page q
      (a boundary this layout set) reopens one page later. The entry is line
      q * height, counted from the heading, and laying the chapter out again
      at that offset asks for page q + 1, because the offset counts the
      heading as line 0. */
  lemma ResumeSkipsPage(w: char -> nat, content: string, maxWidth: int, height: int, st: PagerState, st': PagerState, q: int)
    requires 2 <= maxWidth && 1 <= height
    requires Fits(w, content, maxWidth - 2)
    requires forall i :: 0 <= i < |Lines(content)| ==> StringWidth(w, Lines(content)[i]) <= maxWidth - 2
    requires 1 <= q && q * height < |Lines(content)|
    ensures var m := Proc(w, content, maxWidth, height, 0, st).state.posMapOffset;
            && q in m && m[q] == q * height
            && Proc(w, content, maxWidth, height, m[q], st').state.jump == q + 1
  {
    var t := q * height;
    SplitFits(w, content, maxWidth - 2);
    CountNarrow(w, Lines(content), maxWidth - 2, t);
    assert PhysCount(w, content, maxWidth, t) == t;
    DivModUnique(t, height, q, 0);
    ProcMapsBoundary(w, content, maxWidth, height, 0, st, t);
    PageOfDiv(t, height);
  }

  /** With glyphs at most one cell wide, the width is at most the length. */
  lemma SingleCellWidth(w: char -> nat, s: string)
    requires forall k :: 0 <= k < |s| ==> w(s[k]) <= 1
    ensures StringWidth(w, s) <= |s|
  {
    if |s| > 0 {
      assert forall k :: 0 <= k < |s| - 1 ==> s[1..][k] == s[k + 1];
      SingleCellWidth(w, s[1..]);
    }
  }

  /** A width function under which every glyph takes one cell. */
  function OneCell(c: char): nat
  {
    1
  }

  /** Part of ProcExample: the padded line count, an even number from 5 to 6, halves to three pages. */
  lemma ProcExampleHalf(c: int)
    requires 5 <= c < 7 && c % 2 == 0
    ensures c == 6 && c / 2 == 3
  {
  }

  /** Five one-cell-wide lines on two-line pages: three pages, with pages
      1 and 2 ending after lines 2 and 4 and the last page after line 5. */
  lemma ProcExample()
    ensures var r := Proc(OneCell, "L1\nL2\nL3\nL4\nL5", 100, 2, 0, InitialState);
            && r.state.pageTotal == 3
            && r.state.posMapOffset == map[1 := 2, 2 := 4, 3 := 5]
            && r.state.currentPage == 1 && r.state.jump == 0
  {
    var content := "L1\nL2\nL3\nL4\nL5";
    var lines := ["L1", "L2", "L3", "L4", "L5"];
    assert Join(lines, NewLine) == content by {
      assert Join(lines[4..], NewLine) == "L5";
      assert Join(lines[3..], NewLine) == "L4\nL5";
      assert Join(lines[2..], NewLine) == "L3\nL4\nL5";
      assert Join(lines[1..], NewLine) == "L2\nL3\nL4\nL5";
    }
    SplitJoin(lines, NewLine);
    ProcExampleLines(content);
  }

  /** Part of ProcExample, stated for any text that splits into the five lines. */
  lemma ProcExampleLines(content: string)
    requires Lines(content) == ["L1", "L2", "L3", "L4", "L5"]
    ensures Fits(OneCell, content, 98)
    ensures var r := Proc(OneCell, content, 100, 2, 0, InitialState);
            && r.state.pageTotal == 3
            && r.state.posMapOffset == map[1 := 2, 2 := 4, 3 := 5]
            && r.state.currentPage == 1 && r.state.jump == 0
  {
    ProcExampleCounts(content);
    ProcExamplePages(content);
    var m := Proc(OneCell, content, 100, 2, 0, InitialState).state.posMapOffset;
    ProcExampleBoundaries(content);
    forall k | k in m
      ensures k == 1 || k == 2 || k == 3
    {
      if k != 1 && k != 2 && k != 3 {
        ProcExampleOthers(content, k);
      }
    }
  }

  /** Part of ProcExample: no line wraps, so t logical lines are t physical lines. */
  lemma ProcExampleCounts(content: string)
    requires Lines(content) == ["L1", "L2", "L3", "L4", "L5"]
    ensures Fits(OneCell, content, 98)
    ensures forall t :: 0 <= t <= 5 ==> PhysCount(OneCell, content, 100, t) == t
  {
    var w := OneCell;
    var lines := Lines(content);
    assert Fits(w, content, 98);
    SplitFits(w, content, 98);
    forall i | 0 <= i < 5
      ensures StringWidth(w, lines[i]) <= 98
    {
      SingleCellWidth(w, lines[i]);
    }
    forall t | 0 <= t <= 5
      ensures PhysCount(w, content, 100, t) == t
    {
      CountNarrow(w, lines, 98, t);
    }
  }

  /** Part of ProcExample: the page total. */
  lemma ProcExamplePages(content: string)
    requires |Lines(content)| == 5
    requires Fits(OneCell, content, 98)
    requires PhysCount(OneCell, content, 100, 5) == 5
    ensures Proc(OneCell, content, 100, 2, 0, InitialState).state.pageTotal == 3
  {
    ProcPhysical(OneCell, content, 100, 2, 0, InitialState);
    ProcExampleHalf(|Proc(OneCell, content, 100, 2, 0, InitialState).physical|);
  }

  /** Part of ProcExample: the entries for pages 1 and 2. */
  lemma ProcExampleBoundaries(content: string)
    requires |Lines(content)| == 5
    requires Fits(OneCell, content, 98)
    requires PhysCount(OneCell, content, 100, 2) == 2 && PhysCount(OneCell, content, 100, 4) == 4
    ensures var m := Proc(OneCell, content, 100, 2, 0, InitialState).state.posMapOffset;
            1 in m && m[1] == 2 && 2 in m && m[2] == 4
  {
    ProcMapsBoundary(OneCell, content, 100, 2, 0, InitialState, 2);
    ProcMapsBoundary(OneCell, content, 100, 2, 0, InitialState, 4);
  }

  /** Part of ProcExample: no entry outside pages 1 to 3. */
  lemma ProcExampleOthers(content: string, k: int)
    requires |Lines(content)| == 5
    requires Fits(OneCell, content, 98)
    requires forall t :: 0 <= t <= 5 ==> PhysCount(OneCell, content, 100, t) == t
    requires Proc(OneCell, content, 100, 2, 0, InitialState).state.pageTotal == 3
    requires k != 1 && k != 2 && k != 3
    ensures k !in Proc(OneCell, content, 100, 2, 0, InitialState).state.posMapOffset
  {
    ProcMapsOthers(OneCell, content, 100, 2, 0, InitialState, k);
  }
}

=== FILE: library.dfy ===
/**
  Importing and opening books (views/book.go): charset classification and
  empty-line filtering in `ImportBook`, title derivation in `PathProc`, and
  the catalog lookup plus chapter indexing of `ProcBook`.

  The SQLite catalog is a map from title to record, and the `download/`
  directory a map from file name to its text. Charset detection and the
  GB18030 decoder are inputs: the detected charset name and a decoding
  function.
 */
module Library {
  import opened Wrappers
  import opened Text
  import opened Chapters

  /** A catalog row: normalized line count and last-read line. */
  datatype BookRecord = BookRecord(length: int, lastPos: int)

  /** The catalog and the normalized-text artifacts side by side. */
  datatype Library = Library(catalog: map<string, BookRecord>, files: map<string, string>)

  datatype Encoding = Transcode | PassThrough

  datatype ImportError =
      /** `reader.Peek(4096)` on a file of fewer bytes: `io.EOF`. */
    | ShortFile
    | UnknownEncoding(message: string)
      /** `result.Charset[:2]` or `[:3]` on a shorter name: a Go runtime panic. */
    | CharsetSlicePanic
      /** The catalog's unique constraint on titles. */
    | DuplicateTitle(title: string)

  datatype OpenError = NotFound(title: string) | MissingArtifact(file: string)

  /** Directory the artifacts are written to. */
  const ArtifactDir: string := "download/"

  // ---------------------------------------------------------------------------
  // Charset classification
  // ---------------------------------------------------------------------------

  /** The `if` chain on `result.Charset`: a "GB"/"gb" prefix selects
      transcoding, else a "UTF"/"utf" prefix selects pass-through, else the
      import fails; the prefixes are compared case-sensitively. */
  function ClassifyCharset(charset: string): (r: Result<Encoding, ImportError>)
    ensures r == Success(Transcode) <==> |charset| >= 2 && charset[..2] in ["GB", "gb"]
    ensures r == Success(PassThrough) <==>
              && |charset| >= 3
              && charset[..2] !in ["GB", "gb"]
              && charset[..3] in ["UTF", "utf"]
    ensures r.Failure? && r.error.UnknownEncoding? ==> r.error.message == "Unknown encoding: " + charset
    ensures r.Failure? && r.error.CharsetSlicePanic? <==>
              |charset| < 2 || (|charset| == 2 && charset[..2] !in ["GB", "gb"])
  {
    if |charset| < 2 then Failure(CharsetSlicePanic)
    else if charset[..2] == "GB" || charset[..2] == "gb" then Success(Transcode)
    else if |charset| < 3 then Failure(CharsetSlicePanic)
    else if charset[..3] == "UTF" || charset[..3] == "utf" then Success(PassThrough)
    else Failure(UnknownEncoding("Unknown encoding: " + charset))
  }

  /** Charsets as `chardet` names them: GB2312 and GB-18030 are transcoded,
      UTF-8 and utf-16le pass through, Shift_JIS and mixed-case "Gb..." are
      refused. */
  lemma ClassifyExamples()
    ensures ClassifyCharset("GB2312") == Success(Transcode)
    ensures ClassifyCharset("GB-18030") == Success(Transcode)
    ensures ClassifyCharset("UTF-8") == Success(PassThrough)
    ensures ClassifyCharset("utf-16le") == Success(PassThrough)
    ensures ClassifyCharset("Shift_JIS") == Failure(UnknownEncoding("Unknown encoding: Shift_JIS"))
    ensures ClassifyCharset("Gb2312") == Failure(UnknownEncoding("Unknown encoding: Gb2312"))
  {
    assert "GB2312"[..2] == "GB";
    assert "GB-18030"[..2] == "GB";
    assert "UTF-8"[..2] == "UT" && "UTF-8"[..3] == "UTF";
    assert "utf-16le"[..2] == "ut" && "utf-16le"[..3] == "utf";
    assert "Shift_JIS"[..2] == "Sh" && "Sh"[0] != 'G' && "Sh"[0] != 'g';
    assert "Shift_JIS"[..3] == "Shi" && "Shi"[0] != 'U' && "Shi"[0] != 'u';
    assert "Unknown encoding: " + "Shift_JIS" == "Unknown encoding: Shift_JIS";
    assert "Gb2312"[..2] == "Gb" && "Gb"[1] != 'B' && "Gb"[0] != 'g';
    assert "Gb2312"[..3] == "Gb2" && "Gb2"[0] != 'U' && "Gb2"[0] != 'u';
    assert "Unknown encoding: " + "Gb2312" == "Unknown encoding: Gb2312";
  }

  // ---------------------------------------------------------------------------
  // Empty-line filtering
  // ---------------------------------------------------------------------------

  /** The decoded line: transcoded through `decode` or passed through. */
  function DecodeLine(enc: Encoding, decode: string -> string, raw: string): string
  {
    if enc == Transcode then decode(raw) else raw
  }

  /** Reference definition: the non-empty lines, in their original order. */
  function NonEmpty(xs: seq<string>): (r: seq<string>)
  {
    if |xs| == 0 then []
    else NonEmpty(xs[..|xs| - 1]) + (if xs[|xs| - 1] == "" then [] else [xs[|xs| - 1]])
  }

  /** Filtering distributes over concatenation: relative order is kept. */
  lemma {:induction false} NonEmptyAppend(xs: seq<string>, ys: seq<string>)
    ensures NonEmpty(xs + ys) == NonEmpty(xs) + NonEmpty(ys)
    decreases |ys|
  {
    if |ys| == 0 {
      assert xs + ys == xs;
    } else {
      var zs := xs + ys;
      assert zs[..|zs| - 1] == xs + ys[..|ys| - 1];
      NonEmptyAppend(xs, ys[..|ys| - 1]);
    }
  }

  /** The filter keeps every non-empty line, as many times as it occurs, and
      no empty line. */
  lemma {:induction false} NonEmptyCounts(xs: seq<string>)
    ensures "" !in NonEmpty(xs)
    ensures forall x :: x != "" ==> multiset(NonEmpty(xs))[x] == multiset(xs)[x]
    ensures |NonEmpty(xs)| <= |xs|
    ensures "" !in xs ==> NonEmpty(xs) == xs
  {
    if |xs| > 0 {
      var init := xs[..|xs| - 1];
      NonEmptyCounts(init);
      assert xs == init + [xs[|xs| - 1]];
    }
  }

  /** The scanning loop of `ImportBook`: decodes each raw line, keeps the
      non-empty ones in `all` and counts them in `cnt`. */
  method DecodeAndFilter(enc: Encoding, decode: string -> string, raw: seq<string>)
    returns (all: seq<string>, cnt: int)
    ensures all == NonEmpty(Decoded(enc, decode, raw))
    ensures cnt == |all|
  {
    ghost var decoded := Decoded(enc, decode, raw);
    all := [];
    cnt := 0;
    var n := 0;
    while n < |raw|
      invariant 0 <= n <= |raw|
      invariant all == NonEmpty(decoded[..n])
      invariant cnt == |all|
    {
      var line: string;
      if enc == Transcode {
        line := decode(raw[n]);
      } else {
        line := raw[n];
      }
      assert decoded[..n + 1][..n] == decoded[..n];
      if line != "" {
        all := all + [line];
        cnt := cnt + 1;
      }
      n := n + 1;
    }
    assert decoded[..n] == decoded;
  }

  // ---------------------------------------------------------------------------
  // Path handling (Unix `path/filepath`)
  // ---------------------------------------------------------------------------

  /** `path` without its trailing slashes. */
  function StripTrailingSlashes(path: string): (r: string)
    ensures r <= path
    ensures r == "" || r[|r| - 1] != '/'
    ensures AllSlashes(path[|r|..])
  {
    if |path| > 0 && path[|path| - 1] == '/' then StripTrailingSlashes(path[..|path| - 1]) else path
  }

  /** Index of the last '/' in `s`, or -1. */
  function LastSlash(s: string): (k: int)
    ensures -1 <= k < |s|
    ensures k >= 0 ==> s[k] == '/'
    ensures '/' !in s[k + 1..]
  {
    if |s| == 0 then -1
    else if s[|s| - 1] == '/' then |s| - 1
    else LastSlash(s[..|s| - 1])
  }

  predicate AllSlashes(s: string)
  {
    forall k :: 0 <= k < |s| ==> s[k] == '/'
  }

  /** `b` is the last '/'-separated element of `p`: a suffix of it that is
      all of `p` or follows a '/'. */
  predicate FinalElement(p: string, b: string)
  {
    && |b| <= |p|
    && p[|p| - |b|..] == b
    && (|b| == |p| || p[|p| - |b| - 1] == '/')
  }

  /** `filepath.Base`: the last element of the path; "." for the empty path
      and "/" for a path of slashes only. */
  function Base(path: string): (b: string)
    ensures b != ""
    ensures b == "/" || '/' !in b
    ensures path == "" ==> b == "."
    ensures b == "/" <==> path != "" && AllSlashes(path)
    ensures path != "" && b != "/" ==> FinalElement(StripTrailingSlashes(path), b)
  {
    if path == "" then "."
    else
      var p := StripTrailingSlashes(path);
      var rest := p[LastSlash(p) + 1..];
      if rest == "" then "/" else rest
  }

  /** Where the backward scan of `filepath.Ext` from index `i` stops: the
      last '.' at or before `i` with no '/' after it, or -1 when a '/' or
      the start of the string comes first. */
  function DotAt(s: string, i: int): (k: int)
    requires -1 <= i < |s|
    ensures -1 <= k <= i
    ensures k >= 0 ==> s[k] == '.' && forall j :: k < j <= i ==> s[j] != '.' && s[j] != '/'
    decreases i + 1
  {
    if i < 0 || s[i] == '/' then -1
    else if s[i] == '.' then i
    else DotAt(s, i - 1)
  }

  /** `filepath.Ext`: the suffix from the last '.' of the final element, or "". */
  function Ext(s: string): (e: string)
    ensures |e| <= |s| && s[|s| - |e|..] == e
    ensures e == "" || e[0] == '.'
    ensures '/' !in e
  {
    var k := DotAt(s, |s| - 1);
    if k < 0 then "" else s[k..]
  }

  /** `PathProc` without its `route` result (which the import discards):
      the base name split into stem and extension. */
  function PathProc(path: string): (r: (string, string))
    ensures r.0 + r.1 == Base(path)
    ensures r.1 == "" || (r.1[0] == '.' && '.' !in r.1[1..] && '/' !in r.1)
    ensures r.1 == "" <==> '.' !in Base(path)
  {
    var base := Base(path);
    assert base == "/" || '/' !in base;
    var ext := Ext(base);
    ExtProperties(base);
    (base[..|base| - |ext|], ext)
  }

  /** In a name without '/', the scan from i finds no '.' exactly when
      there is none at or before i. */
  lemma {:induction false} DotAtNone(s: string, i: int)
    requires -1 <= i < |s|
    requires forall k :: 0 <= k < |s| ==> s[k] != '/'
    ensures DotAt(s, i) == -1 <==> forall k :: 0 <= k <= i ==> s[k] != '.'
    decreases i + 1
  {
    if i >= 0 && s[i] != '.' {
      DotAtNone(s, i - 1);
    }
  }

  lemma ExtProperties(base: string)
    requires base == "/" || '/' !in base
    ensures var e := Ext(base);
            && (e == "" <==> '.' !in base)
            && (e == "" || (e[0] == '.' && '.' !in e[1..] && '/' !in e))
  {
    var n := |base|;
    var k := DotAt(base, n - 1);
    var e := Ext(base);
    if base == "/" {
      assert k == -1;
    } else if k < 0 {
      DotAtNone(base, n - 1);
    } else {
      assert e == base[k..];
      assert forall j :: 1 <= j < |e| ==> e[j] == base[k + j];
      assert '.' !in e[1..] by {
        assert forall j :: 0 <= j < |e| - 1 ==> e[1..][j] == e[j + 1];
      }
    }
  }

  /** A file name without slashes is its own base name, whatever directory
      it sits in. */
  lemma BaseOfJoined(dir: string, file: string)
    requires file != "" && '/' !in file
    ensures Base(dir + "/" + file) == file
  {
    var path := dir + "/" + file;
    assert path[|path| - 1] == file[|file| - 1];
    assert StripTrailingSlashes(path) == path;
    assert path[|dir|] == '/';
    assert path[|dir| + 1..] == file;
  }

  lemma ExtOfTxt(stem: string)
    requires '.' !in stem
    ensures Ext(stem + ".txt") == ".txt"
  {
    var file := stem + ".txt";
    var n := |file|;
    assert file[n - 1] == 't' && file[n - 2] == 'x' && file[n - 3] == 't' && file[n - 4] == '.';
    assert DotAt(file, n - 1) == DotAt(file, n - 2) == DotAt(file, n - 3) == DotAt(file, n - 4) == n - 4;
    assert file[n - 4..] == ".txt";
  }

  /** The title of a ".txt" book is its file name minus ".txt". */
  lemma TitleOfTxt(dir: string, stem: string)
    requires '/' !in stem && '.' !in stem
    ensures PathProc(dir + "/" + stem + ".txt") == (stem, ".txt")
  {
    var file := stem + ".txt";
    assert '/' !in file by {
      assert forall k :: 0 <= k < |stem| ==> file[k] == stem[k];
    }
    BaseOfJoined(dir, file);
    assert dir + "/" + stem + ".txt" == dir + "/" + file;
    ExtOfTxt(stem);
    assert file[..|file| - 4] == stem;
  }

  // ---------------------------------------------------------------------------
  // Import and open
  // ---------------------------------------------------------------------------

  /** Artifact name the importer writes for a book. */
  function WrittenName(name: string, ext: string): string
  {
    ArtifactDir + name + ext
  }

  /** Artifact name `ProcBook` and `DelBook` read: always ".txt". */
  function ReadName(title: string): string
  {
    ArtifactDir + title + ".txt"
  }

  /** The importer and the opener agree on a book's file name exactly when
      its extension is ".txt". */
  lemma WrittenIsRead(name: string, ext: string)
    ensures WrittenName(name, ext) == ReadName(name) <==> ext == ".txt"
  {
    var stem := ArtifactDir + name;
    assert WrittenName(name, ext) == stem + ext;
    assert ReadName(name) == stem + ".txt";
    if stem + ext == stem + ".txt" {
      assert (stem + ext)[|stem|..] == ext;
      assert (stem + ".txt")[|stem|..] == ".txt";
    }
  }

  /** The decoded lines of a whole file. */
  function Decoded(enc: Encoding, decode: string -> string, raw: seq<string>): seq<string>
  {
    seq(|raw|, i requires 0 <= i < |raw| => DecodeLine(enc, decode, raw[i]))
  }

  /** The lines an import keeps: decoded, empty ones dropped. */
  function Kept(charset: string, decode: string -> string, raw: seq<string>): seq<string>
    requires ClassifyCharset(charset).Success?
  {
    NonEmpty(Decoded(ClassifyCharset(charset).value, decode, raw))
  }

  /** The artifact text the importer's writer produces: every kept line
      followed by "\n". */
  function Serialize(lines: seq<string>): (text: string)
    ensures |lines| == 0 <==> text == ""
    ensures |lines| > 0 ==> text[|text| - 1] == NewLine
  {
    if |lines| == 0 then "" else lines[0] + [NewLine] + Serialize(lines[1..])
  }

  /** The end of a `bufio.ScanLines` token: one trailing '\r' is dropped. */
  function DropCR(s: string): (r: string)
    ensures r <= s
    ensures r != s <==> |s| > 0 && s[|s| - 1] == '\r'
    ensures r != s ==> s == r + "\r"
  {
    if |s| > 0 && s[|s| - 1] == '\r' then s[..|s| - 1] else s
  }

  /** Reading a file with `bufio.Scanner`'s default line splitting: a token
      ends at each "\n", a final fragment without "\n" is a token too, an
      empty file has none, and every token loses one trailing '\r'. */
  function ScanLines(text: string): (r: seq<string>)
    ensures NoSep(r, NewLine)
    ensures |r| <= |text|
    decreases |text|
  {
    if text == "" then []
    else
      var k := IndexOf(text, NewLine);
      if k < 0 then [DropCR(text)]
      else
        var head := DropCR(text[..k]);
        var rest := ScanLines(text[k + 1..]);
        assert NewLine !in head by {
          assert forall j :: 0 <= j < |head| ==> head[j] == text[..k][j];
        }
        [head] + rest
  }

  /** Every line with one trailing '\r' dropped. */
  function DropCRs(lines: seq<string>): (r: seq<string>)
    ensures |r| == |lines|
    ensures forall i :: 0 <= i < |lines| ==> r[i] == DropCR(lines[i])
  {
    if |lines| == 0 then [] else [DropCR(lines[0])] + DropCRs(lines[1..])
  }

  /** No line ends in '\r'. */
  predicate NoTrailingCR(lines: seq<string>)
  {
    forall i :: 0 <= i < |lines| ==> lines[i] == "" || lines[i][|lines[i]| - 1] != '\r'
  }

  /** Scanning a written artifact gives back its lines, each without one
      trailing '\r', as long as no line contains "\n". */
  lemma {:induction false} ScanSerialized(lines: seq<string>)
    requires NoSep(lines, NewLine)
    ensures ScanLines(Serialize(lines)) == DropCRs(lines)
  {
    if |lines| > 0 {
      var rest := Serialize(lines[1..]);
      var text := lines[0] + [NewLine] + rest;
      assert Serialize(lines) == text;
      IndexOfAfterPrefix(lines[0], NewLine, rest);
      var k := |lines[0]|;
      assert text[..k] == lines[0];
      assert text[k + 1..] == rest;
      ScanSerialized(lines[1..]);
      assert ScanLines(text) == [DropCR(lines[0])] + DropCRs(lines[1..]);
    }
  }

  /** Lines without a trailing '\r' survive the scanner unchanged. */
  lemma DropCRsNone(lines: seq<string>)
    requires NoTrailingCR(lines)
    ensures DropCRs(lines) == lines
  {
  }

  /** A line kept as "abc\r" is written as "abc\r\n" and scanned back as "abc". */
  lemma ScanDropsCR()
    ensures Serialize(["abc\r"]) == "abc\r\n"
    ensures ScanLines(Serialize(["abc\r"])) == ["abc"]
  {
    var line := "abc\r";
    assert [line][1..] == [];
    assert Serialize([line]) == line + [NewLine];
    ScanSerialized([line]);
    assert DropCR(line) == "abc";
    assert DropCRs([line]) == [DropCR(line)];
  }

  /** `reader.Peek(4096)` fails with `io.EOF` on a file shorter than this. */
  const PeekSize: nat := 4096

  /** `ImportBook` on a file of `size` bytes whose scanner lines are `raw`:
      peek, classify, decode and filter, register the title with the
      surviving line count, write the artifact. Nothing is registered when
      the file is too short to peek at, the charset is refused or the title
      is taken. */
  method ImportBook(lib: Library, path: string, size: nat, charset: string, decode: string -> string, raw: seq<string>)
    returns (r: Result<Library, ImportError>)
    ensures size < PeekSize ==> r == Failure(ShortFile)
    ensures size >= PeekSize && ClassifyCharset(charset).Failure? ==> r == Failure(ClassifyCharset(charset).error)
    ensures r.Success? <==> size >= PeekSize && ClassifyCharset(charset).Success? && PathProc(path).0 !in lib.catalog
    ensures size >= PeekSize && ClassifyCharset(charset).Success? && PathProc(path).0 in lib.catalog ==>
              r == Failure(DuplicateTitle(PathProc(path).0))
    ensures r.Success? ==>
              var (name, ext) := PathProc(path);
              var kept := Kept(charset, decode, raw);
              && r.value.catalog == lib.catalog[name := BookRecord(|kept|, 0)]
              && r.value.files == lib.files[WrittenName(name, ext) := Serialize(kept)]
  {
    if size < PeekSize {
      return Failure(ShortFile);
    }
    var enc :- ClassifyCharset(charset);
    var all, cnt := DecodeAndFilter(enc, decode, raw);
    assert all == Kept(charset, decode, raw);
    var names := PathProc(path);
    var bookname, ext := names.0, names.1;
    if bookname in lib.catalog {
      return Failure(DuplicateTitle(bookname));
    }
    var catalog := lib.catalog[bookname := BookRecord(cnt, 0)];
    r := Success(Library(catalog, lib.files[WrittenName(bookname, ext) := Serialize(all)]));
  }

  /** An opened book: title, normalized lines, chapter markers, last position. */
  datatype Session = Session(bookName: string, lines: seq<string>, markers: seq<Marker>, lastPos: int)

  /** `ProcBook`: look the title up, scan its ".txt" artifact, index its chapters. */
  function ProcBook(lib: Library, title: string): (r: Result<Session, OpenError>)
    ensures r.Success? <==> title in lib.catalog && ReadName(title) in lib.files
    ensures r.Success? ==>
              && r.value.bookName == title
              && r.value.lastPos == lib.catalog[title].lastPos
              && r.value.lines == ScanLines(lib.files[ReadName(title)])
              && r.value.markers == IndexChapters(r.value.lines)
              && Indexed(r.value.markers, |r.value.lines|)
    ensures title !in lib.catalog ==> r == Failure(NotFound(title))
    ensures title in lib.catalog && ReadName(title) !in lib.files ==> r == Failure(MissingArtifact(ReadName(title)))
  {
    if title !in lib.catalog then Failure(NotFound(title))
    else if ReadName(title) !in lib.files then Failure(MissingArtifact(ReadName(title)))
    else
      var lines := ScanLines(lib.files[ReadName(title)]);
      Success(Session(title, lines, IndexChapters(lines), lib.catalog[title].lastPos))
  }

  /** Import followed by open. A ".txt" book reopens at position 0 with its
      artifact scanned back: when no kept line holds "\n", that is the kept
      lines each without one trailing '\r', as many as the recorded length,
      and exactly the kept lines when none ends in '\r'. A book of any other
      extension cannot be opened unless a file of the ".txt" name was
      already there. */
  lemma ImportThenOpen(lib: Library, lib': Library, path: string, charset: string, decode: string -> string, raw: seq<string>)
    requires ClassifyCharset(charset).Success?
    requires PathProc(path).0 !in lib.catalog
    requires lib'.catalog == lib.catalog[PathProc(path).0 := BookRecord(|Kept(charset, decode, raw)|, 0)]
    requires lib'.files == lib.files[WrittenName(PathProc(path).0, PathProc(path).1) := Serialize(Kept(charset, decode, raw))]
    ensures var title := PathProc(path).0;
            var kept := Kept(charset, decode, raw);
            var reopened := ProcBook(lib', title);
            && (PathProc(path).1 == ".txt" ==>
                  && reopened.Success?
                  && reopened.value.lines == ScanLines(Serialize(kept))
                  && reopened.value.lastPos == 0
                  && (NoSep(kept, NewLine) ==>
                        && reopened.value.lines == DropCRs(kept)
                        && lib'.catalog[title].length == |reopened.value.lines|)
                  && (NoSep(kept, NewLine) && NoTrailingCR(kept) ==> reopened.value.lines == kept))
            && (PathProc(path).1 != ".txt" && ReadName(title) !in lib.files ==> reopened.Failure?)
  {
    var (title, ext) := PathProc(path);
    var kept := Kept(charset, decode, raw);
    WrittenIsRead(title, ext);
    if ext == ".txt" && NoSep(kept, NewLine) {
      ScanSerialized(kept);
      if NoTrailingCR(kept) {
        DropCRsNone(kept);
      }
    }
  }
}

=== FILE: pager.dfy ===
/**
  The reading view's update loop (`modelPager.Update` in views/pager.go)
  with the viewport widget, header, footer and key bindings stripped out.

  What is left is a state machine over the chapter index, the laid-out text
  and the former package globals (`PagerState`). The open book (`bookAll`,
  `bookDirs`), the window size kept by the top-level view (`winwidth`,
  `winheight`) and the height of header plus footer are an explicit
  environment. A position write (`UpdateBookPos`) is reported as `persist`,
  and a message the Go code would send back to the program is reported as
  `cmd`.
 */
module Pager {
  import opened Wrappers
  import opened Text
  import opened Chapters
  import opened Layout

  /** `pagerMsg`: a chapter to show and the absolute line to resume at. */
  datatype PagerMsg = PagerMsg(title: string, content: string, currentIndex: int, lastPos: int)

  /** The fields of `modelPager` the update loop reads and writes, plus the
      pager globals. `content` is the laid-out text handed to the viewport. */
  datatype Pager = Pager(currentIndex: int, title: string, content: string, ready: bool, st: PagerState)

  /** The zero value of `modelPager` and the initial globals. */
  const InitialPager: Pager := Pager(0, "", "", false, InitialState)

  /** The open book and the window: per-character display width, the book's
      lines and chapter markers, the window size and the rows taken by
      header and footer. */
  datatype Env = Env(w: char -> nat, lines: seq<string>, markers: seq<Marker>, width: int, height: int, margin: int)

  /** What the Go code can receive: the two paging keys, the other bound
      keys, a window size, a chapter to show, and any other message. */
  datatype Event =
    | PageUp
    | PageDown
    | OpenDir
    | Quit
    | OtherKey
    | Resize(width: int, height: int)
    | Load(msg: PagerMsg)
    | OtherMsg

  /** Messages the update loop sends back: show a chapter, return to the
      shelf (with a refresh), or open the chapter list at an index. */
  datatype Cmd = Show(msg: PagerMsg) | BackToShelf | OpenDirList(index: int)

  /** One update: the new pager, the position written to the catalog, if
      any, and the message sent, if any. */
  datatype Step = Step(pager: Pager, persist: Option<int>, cmd: Option<Cmd>)

  /** The marker table belongs to the book's lines. */
  predicate WellFormed(env: Env)
  {
    Indexed(env.markers, |env.lines|)
  }

  /** `proc` terminates only when every glyph fits in the viewport minus its
      margin, and divides by the page height. */
  predicate CanLayOut(env: Env, content: string, width: int, height: int)
  {
    2 <= width && 1 <= height && Fits(env.w, content, width - 2)
  }

  /** The events that lay out text need text the layout can handle. */
  predicate Admissible(env: Env, p: Pager, e: Event)
  {
    match e
    case Resize(width, height) => p.ready || CanLayOut(env, p.content, width, height - env.margin)
    case Load(msg) => CanLayOut(env, msg.content, env.width, env.height - env.margin)
    case _ => true
  }

  /** Reading a Go map at a missing key yields the zero value. */
  function MapGet(m: map<int, int>, k: int): int
  {
    if k in m then m[k] else 0
  }

  /** `GetChapterStart` on the open book. */
  function Start(env: Env, index: int): (s: int)
    requires WellFormed(env)
    ensures 0 <= s <= |env.lines|
  {
    GetChapterStart(env.markers, |env.lines|, index)
  }

  /** The message that shows the chapter holding line `pos`, to be resumed at `lastPos`. */
  function ChapterAt(env: Env, pos: int, lastPos: int): PagerMsg
    requires WellFormed(env) && PreludeInRange(env.markers, pos)
  {
    var r := GetBookContent(env.lines, env.markers, pos);
    PagerMsg(r.title, r.content, r.index, lastPos)
  }

  /** The code after the type switch: replay a pending jump by paging down
      to it, then clear it. A pending jump of 1 is left in place. */
  function Replay(st: PagerState): PagerState
  {
    if st.jump > 1 then st.(currentPage := st.jump, jump := 0) else st
  }

  /** The PageUp branch. */
  function PageUpStep(env: Env, p: Pager): Step
    requires WellFormed(env)
  {
    if p.st.currentPage <= 1 then
      if p.currentIndex >= 0 then
        var msg := ChapterAt(env, Start(env, p.currentIndex - 1), Start(env, p.currentIndex) - 1);
        Step(p, None, Some(Show(msg)))
      else Step(p, None, None)
    else
      var page := p.st.currentPage - 1;
      Step(p.(st := p.st.(currentPage := page)), Some(Start(env, p.currentIndex) + MapGet(p.st.posMapOffset, page)), None)
  }

  /** The PageDown branch. */
  function PageDownStep(env: Env, p: Pager): Step
    requires WellFormed(env)
  {
    if p.st.currentPage >= p.st.pageTotal then
      if p.currentIndex < |env.markers| - 1 then
        var msg := ChapterAt(env, Start(env, p.currentIndex + 1), Start(env, p.currentIndex + 1));
        Step(p, None, Some(Show(msg)))
      else Step(p, None, None)
    else
      var page := p.st.currentPage + 1;
      Step(p.(st := p.st.(currentPage := page)), Some(Start(env, p.currentIndex) + MapGet(p.st.posMapOffset, page)), None)
  }

  /** The window-size branch: only the first one lays the text out, from
      offset 0; later ones only resize the viewport. */
  function ResizeStep(env: Env, p: Pager, width: int, height: int): Pager
    requires p.ready || CanLayOut(env, p.content, width, height - env.margin)
  {
    if p.ready then p
    else Resized(p, Proc(env.w, p.content, width, height - env.margin, 0, p.st))
  }

  /** The pager once the first window size has laid its text out. */
  function Resized(p: Pager, laid: Laid): Pager
  {
    p.(content := Join(laid.physical, NewLine), ready := true, st := laid.state)
  }

  /** The `pagerMsg` branch once `proc` has laid the chapter out: show the
      laid-out text, replay the jump, and write the resume line, or the
      chapter start plus the current page's entry when the resume line is
      not positive. */
  function Loaded(env: Env, msg: PagerMsg, ready: bool, laid: Laid): Step
    requires WellFormed(env)
  {
    var idx := msg.currentIndex;
    var persist := if msg.lastPos > 0 then msg.lastPos else Start(env, idx) + MapGet(laid.state.posMapOffset, laid.state.currentPage);
    Step(Pager(idx, msg.title, Join(laid.physical, NewLine), ready, Replay(laid.state)), Some(persist), None)
  }

  /** The `pagerMsg` branch: lay the chapter out from the resume line's
      offset into it. */
  function LoadStep(env: Env, p: Pager, msg: PagerMsg): Step
    requires WellFormed(env)
    requires CanLayOut(env, msg.content, env.width, env.height - env.margin)
  {
    var offset := msg.lastPos - Start(env, msg.currentIndex);
    Loaded(env, msg, p.ready, Proc(env.w, msg.content, env.width, env.height - env.margin, offset, p.st))
  }

  /** `modelPager.Update`. Key events return before the jump replay; all
      other events reach it. */
  function Update(env: Env, p: Pager, e: Event): Step
    requires WellFormed(env)
    requires Admissible(env, p, e)
  {
    match e
    case PageUp => PageUpStep(env, p)
    case PageDown => PageDownStep(env, p)
    case OpenDir => Step(p, None, Some(OpenDirList(p.currentIndex)))
    case Quit => Step(p, None, Some(BackToShelf))
    case OtherKey => Step(p, None, None)
    case Resize(width, height) =>
      var q := ResizeStep(env, p, width, height);
      Step(q.(st := Replay(q.st)), None, None)
    case Load(msg) => LoadStep(env, p, msg)
    case OtherMsg => Step(p.(st := Replay(p.st)), None, None)
  }

  // ---------------------------------------------------------------------------
  // Properties
  // ---------------------------------------------------------------------------

  /** Between updates the page lies within the chapter and no jump larger
      than one page is pending. */
  predicate Inv(p: Pager)
  {
    1 <= p.st.currentPage <= p.st.pageTotal && 0 <= p.st.jump <= 1
  }

  lemma InitialInv()
    ensures Inv(InitialPager)
  {
  }

  /** Every update keeps the invariant. */
  lemma UpdateKeepsInv(env: Env, p: Pager, e: Event)
    requires WellFormed(env) && Admissible(env, p, e)
    requires Inv(p)
    ensures Inv(Update(env, p, e).pager)
  {
    match e
    case Resize(width, height) =>
      if !p.ready {
        var laid := Proc(env.w, p.content, width, height - env.margin, 0, p.st);
        assert Lines(p.content) != [];
      }
    case Load(msg) =>
      UpdateLoad(env, p, msg);
      LoadShowsPage(env, p, msg);
    case _ =>
  }

  /** Paging down inside a chapter and back up restores the pager, and each
      key writes the chapter start plus the map entry of the page it lands on. */
  lemma PageDownThenUp(env: Env, p: Pager)
    requires WellFormed(env)
    requires 1 <= p.st.currentPage < p.st.pageTotal
    ensures var s1 := Update(env, p, PageDown);
            var s2 := Update(env, s1.pager, PageUp);
            && s1.pager.st.currentPage == p.st.currentPage + 1
            && s1.persist == Some(Start(env, p.currentIndex) + MapGet(p.st.posMapOffset, p.st.currentPage + 1))
            && s1.cmd == None
            && s2.pager == p
            && s2.persist == Some(Start(env, p.currentIndex) + MapGet(p.st.posMapOffset, p.st.currentPage))
            && s2.cmd == None
  {
  }

  /** A page the map has no entry for (no logical line ends on it) reads
      as offset 0: paging onto it writes the chapter's own start line. */
  lemma PageDownMissingEntry(env: Env, p: Pager)
    requires WellFormed(env)
    requires 1 <= p.st.currentPage < p.st.pageTotal
    requires p.st.currentPage + 1 !in p.st.posMapOffset
    ensures Update(env, p, PageDown).persist == Some(Start(env, p.currentIndex))
  {
  }

  /** Paging up inside a chapter and back down restores the pager. */
  lemma PageUpThenDown(env: Env, p: Pager)
    requires WellFormed(env)
    requires 1 < p.st.currentPage <= p.st.pageTotal
    ensures var s1 := Update(env, p, PageUp);
            var s2 := Update(env, s1.pager, PageDown);
            && s1.pager.st.currentPage == p.st.currentPage - 1
            && s2.pager == p
            && s2.persist == Some(Start(env, p.currentIndex) + MapGet(p.st.posMapOffset, p.st.currentPage))
  {
  }

  /** On the last page, PageDown asks for the next chapter at its heading
      line, or does nothing at the end of the book. The pager itself is
      never changed and nothing is written. */
  lemma PageDownAtEnd(env: Env, p: Pager)
    requires WellFormed(env)
    requires p.st.currentPage >= p.st.pageTotal
    requires -1 <= p.currentIndex
    ensures var s := Update(env, p, PageDown);
            && s.pager == p && s.persist == None
            && (p.currentIndex < |env.markers| - 1 <==> s.cmd.Some?)
            && (s.cmd.Some? ==>
                  var i := p.currentIndex + 1;
                  s.cmd == Some(Show(s.cmd.value.msg))
                  && s.cmd.value.msg.currentIndex == i
                  && s.cmd.value.msg.title == env.markers[i].name
                  && s.cmd.value.msg.content == ChapterContent(env.lines, env.markers, i)
                  && s.cmd.value.msg.lastPos == env.markers[i].start)
  {
    if p.currentIndex < |env.markers| - 1 {
      ResolveMarkerStart(env.lines, env.markers, p.currentIndex + 1);
    }
  }

  /** On the first page, PageUp asks for the content at the previous
      chapter's start, to be resumed at the line before the current chapter.
      From chapter i >= 1 that is chapter i - 1. From chapter 0 it is the
      prelude (-1) unless the first heading is line 0; then chapter 0 asks
      for itself. In the prelude it does nothing. */
  lemma PageUpAtStart(env: Env, p: Pager)
    requires WellFormed(env)
    requires p.st.currentPage <= 1
    requires p.currentIndex < |env.markers|
    ensures var s := Update(env, p, PageUp);
            && s.pager == p && s.persist == None
            && (p.currentIndex >= 0 <==> s.cmd.Some?)
            && (s.cmd.Some? ==>
                  var m := s.cmd.value.msg;
                  s.cmd == Some(Show(m))
                  && m.lastPos == env.markers[p.currentIndex].start - 1
                  && (p.currentIndex >= 1 ==> m.currentIndex == p.currentIndex - 1)
                  && (p.currentIndex == 0 ==> m.currentIndex == if env.markers[0].start == 0 then 0 else -1)
                  && (p.currentIndex >= 1 ==>
                        && m.title == env.markers[p.currentIndex - 1].name
                        && m.content == ChapterContent(env.lines, env.markers, p.currentIndex - 1))
                  && (p.currentIndex == 0 && env.markers[0].start == 0 ==>
                        m.title == env.markers[0].name && m.content == ChapterContent(env.lines, env.markers, 0))
                  && (p.currentIndex == 0 && env.markers[0].start > 0 ==>
                        && m.title == ""
                        && m.content == if |env.markers| > 1 then Join(env.lines[..env.markers[0].start - 1], NewLine) else ""))
  {
    if p.currentIndex >= 1 {
      ResolveMarkerStart(env.lines, env.markers, p.currentIndex - 1);
    } else if p.currentIndex == 0 && env.markers[0].start == 0 {
      ResolveMarkerStart(env.lines, env.markers, 0);
    }
  }

  /** A load is `LoadStep`: the jump replay is part of it. */
  lemma UpdateLoad(env: Env, p: Pager, msg: PagerMsg)
    requires WellFormed(env) && Admissible(env, p, Load(msg))
    ensures Update(env, p, Load(msg)) == LoadStep(env, p, msg)
  {
  }

  /** The page shown for an offset from the heading into a chapter of n
      logical lines: page offset / height + 1 when it lies inside the
      chapter, the last page when it lies past it, and the first page
      otherwise. */
  predicate ShowsPage(st: PagerState, offset: int, n: int, height: int)
    requires 1 <= height
  {
    && (0 < offset < n ==> st.currentPage == PageOf(offset, height))
    && (offset >= n ==> st.currentPage == st.pageTotal)
    && (offset <= 0 ==> st.currentPage == 1)
  }

  /** A load keeps the invariant and shows page offset / height + 1 for a
      resume offset inside the chapter, the last page past it, and the first
      page otherwise. */
  lemma LoadShowsPage(env: Env, p: Pager, msg: PagerMsg)
    requires WellFormed(env) && CanLayOut(env, msg.content, env.width, env.height - env.margin)
    requires Inv(p)
    ensures var s := LoadStep(env, p, msg);
            var n := |Lines(msg.content)|;
            var offset := msg.lastPos - Start(env, msg.currentIndex);
            Inv(s.pager) && ShowsPage(s.pager.st, offset, n, env.height - env.margin)
  {
    var offset := msg.lastPos - Start(env, msg.currentIndex);
    var height := env.height - env.margin;
    var laid := Proc(env.w, msg.content, env.width, height, offset, p.st);
    LoadStepIs(env, p, msg);
    LoadUnfolds(env, msg, p.ready, laid);
    ReplayAfterProc(env.w, msg.content, env.width, height, offset, p.st);
  }

  lemma LoadStepIs(env: Env, p: Pager, msg: PagerMsg)
    requires WellFormed(env) && CanLayOut(env, msg.content, env.width, env.height - env.margin)
    ensures LoadStep(env, p, msg)
              == Loaded(env, msg, p.ready, Proc(env.w, msg.content, env.width, env.height - env.margin, msg.lastPos - Start(env, msg.currentIndex), p.st))
  {
  }

  /** A load shows the message's chapter and title, writes the resume line
      when it is positive and otherwise the chapter start plus page 1's
      entry, and sends nothing. */
  lemma LoadWritesPosition(env: Env, p: Pager, msg: PagerMsg)
    requires WellFormed(env) && CanLayOut(env, msg.content, env.width, env.height - env.margin)
    ensures var s := LoadStep(env, p, msg);
            var start := Start(env, msg.currentIndex);
            && s.pager.currentIndex == msg.currentIndex
            && s.pager.title == msg.title
            && s.persist.Some?
            && (msg.lastPos > 0 ==> s.persist.value == msg.lastPos)
            && (msg.lastPos <= 0 ==> start + 1 <= s.persist.value <= start + |Lines(msg.content)|)
            && s.cmd == None
  {
    var offset := msg.lastPos - Start(env, msg.currentIndex);
    var height := env.height - env.margin;
    var laid := Proc(env.w, msg.content, env.width, height, offset, p.st);
    LoadStepIs(env, p, msg);
    ProcFirstPage(env.w, msg.content, env.width, height, offset, p.st);
    LoadedWrites(env, msg, p.ready, laid, |Lines(msg.content)|);
  }

  /** What a load writes once its layout is on page 1 with page 1's entry
      inside a chapter of n lines. */
  lemma LoadedWrites(env: Env, msg: PagerMsg, ready: bool, laid: Laid, n: int)
    requires WellFormed(env)
    requires laid.state.currentPage == 1 && 1 in laid.state.posMapOffset
    requires 1 <= laid.state.posMapOffset[1] <= n
    ensures var s := Loaded(env, msg, ready, laid);
            var start := Start(env, msg.currentIndex);
            && s.pager.currentIndex == msg.currentIndex
            && s.pager.title == msg.title
            && s.persist.Some?
            && (msg.lastPos > 0 ==> s.persist.value == msg.lastPos)
            && (msg.lastPos <= 0 ==> start + 1 <= s.persist.value <= start + n)
            && s.cmd == None
  {
    LoadUnfolds(env, msg, ready, laid);
  }

  /** What a load computes from the layout of the chapter. */
  lemma LoadUnfolds(env: Env, msg: PagerMsg, ready: bool, laid: Laid)
    requires WellFormed(env)
    ensures var s := Loaded(env, msg, ready, laid);
            && s.pager.currentIndex == msg.currentIndex
            && s.pager.title == msg.title
            && s.pager.st == Replay(laid.state)
            && s.persist == Some(if msg.lastPos > 0 then msg.lastPos else Start(env, msg.currentIndex) + MapGet(laid.state.posMapOffset, laid.state.currentPage))
            && s.cmd == None
  {
  }

  /** The page shown once a layout's jump is replayed: page
      offset / height + 1 inside the chapter, the last page past it, page 1
      otherwise. */
  lemma ReplayAfterProc(w: char -> nat, content: string, maxWidth: int, maxHeight: int, offset: int, st: PagerState)
    requires 2 <= maxWidth && 1 <= maxHeight
    requires Fits(w, content, maxWidth - 2)
    requires 0 <= st.jump <= 1
    ensures var r := Proc(w, content, maxWidth, maxHeight, offset, st).state;
            var shown := Replay(r);
            var n := |Lines(content)|;
            && shown.pageTotal == r.pageTotal && shown.posMapOffset == r.posMapOffset
            && 1 <= shown.currentPage <= shown.pageTotal && 0 <= shown.jump <= 1
            && ShowsPage(shown, offset, n, maxHeight)
  {
  }

  /** An empty chapter body loads as a single page. */
  lemma LoadEmpty(env: Env, p: Pager, msg: PagerMsg)
    requires WellFormed(env) && CanLayOut(env, msg.content, env.width, env.height - env.margin)
    requires msg.content == ""
    ensures LoadStep(env, p, msg).pager.st.pageTotal == 1
  {
    var offset := msg.lastPos - Start(env, msg.currentIndex);
    var height := env.height - env.margin;
    LoadUnfolds(env, msg, p.ready, Proc(env.w, msg.content, env.width, height, offset, p.st));
    ProcEmpty(env.w, msg.content, env.width, height, offset, p.st);
  }

  /** The next chapter, as PageDown asks for it, opens on its first page. */
  lemma NextChapterOpensAtTop(env: Env, p: Pager, q: Pager)
    requires WellFormed(env)
    requires p.st.currentPage >= p.st.pageTotal
    requires -1 <= p.currentIndex < |env.markers| - 1
    requires Inv(q)
    requires var s := Update(env, p, PageDown);
             s.cmd.Some? && s.cmd.value.Show? && Admissible(env, q, Load(s.cmd.value.msg))
    ensures var msg := Update(env, p, PageDown).cmd.value.msg;
            var s := Update(env, q, Load(msg));
            s.pager.currentIndex == p.currentIndex + 1 && s.pager.st.currentPage == 1
  {
    PageDownAtEnd(env, p);
    var msg := Update(env, p, PageDown).cmd.value.msg;
    UpdateLoad(env, q, msg);
    LoadShowsPage(env, q, msg);
    LoadWritesPosition(env, q, msg);
  }

  /** The message for the chapter at marker i, resumed at the line before
      the next marker: chapter i, its content, and an offset one short of
      the distance between the markers. */
  lemma ChapterAtMarker(env: Env, i: int)
    requires WellFormed(env)
    requires 0 <= i < |env.markers| - 1
    ensures var msg := ChapterAt(env, env.markers[i].start, env.markers[i + 1].start - 1);
            && msg.currentIndex == i
            && msg.content == ChapterContent(env.lines, env.markers, i)
            && msg.lastPos - Start(env, i) == env.markers[i + 1].start - env.markers[i].start - 1
  {
    ResolveMarkerStart(env.lines, env.markers, i);
  }

  /** A load whose offset reaches past the chapter's lines, or whose chapter
      is empty, opens on the chapter's last page. */
  lemma LoadAtEnd(env: Env, q: Pager, msg: PagerMsg)
    requires WellFormed(env) && Admissible(env, q, Load(msg))
    requires Inv(q)
    requires msg.lastPos - Start(env, msg.currentIndex) >= |Lines(msg.content)| || msg.content == ""
    ensures var s := Update(env, q, Load(msg));
            s.pager.currentIndex == msg.currentIndex && s.pager.st.currentPage == s.pager.st.pageTotal
  {
    UpdateLoad(env, q, msg);
    LoadShowsPage(env, q, msg);
    LoadWritesPosition(env, q, msg);
    if msg.content == "" {
      LoadEmpty(env, q, msg);
    }
  }

  /** The previous chapter, as PageUp asks for it from chapter i >= 1, opens
      on its last page. */
  lemma PrevChapterOpensAtEnd(env: Env, p: Pager, q: Pager)
    requires WellFormed(env)
    requires NoSep(env.lines, NewLine)
    requires p.st.currentPage <= 1
    requires 1 <= p.currentIndex < |env.markers|
    requires Inv(q)
    requires var s := Update(env, p, PageUp);
             s.cmd.Some? && s.cmd.value.Show? && Admissible(env, q, Load(s.cmd.value.msg))
    ensures var msg := Update(env, p, PageUp).cmd.value.msg;
            var s := Update(env, q, Load(msg));
            s.pager.currentIndex == p.currentIndex - 1 && s.pager.st.currentPage == s.pager.st.pageTotal
  {
    var i := p.currentIndex - 1;
    var msg := Update(env, p, PageUp).cmd.value.msg;
    assert msg == ChapterAt(env, env.markers[i].start, env.markers[i + 1].start - 1);
    ChapterAtMarker(env, i);
    ChapterLineCount(env.lines, env.markers, i);
    LoadAtEnd(env, q, msg);
  }

  /** The other bound keys and unbound keys leave the pager alone and write
      nothing; only OpenDir and Quit send a message. */
  lemma OtherKeysKeepPager(env: Env, p: Pager, e: Event)
    requires WellFormed(env)
    requires e == OpenDir || e == Quit || e == OtherKey
    ensures var s := Update(env, p, e);
            && s.pager == p && s.persist == None
            && (e == OpenDir ==> s.cmd == Some(OpenDirList(p.currentIndex)))
            && (e == Quit ==> s.cmd == Some(BackToShelf))
            && (e == OtherKey ==> s.cmd == None)
  {
  }

  /** Any message that is not a key reaches the jump replay: a pending jump
      past page 1 becomes the current page and is cleared; otherwise page and
      jump stay as they were. Nothing else changes. */
  lemma MessagesReplayJump(env: Env, p: Pager)
    requires WellFormed(env)
    ensures var s := Update(env, p, OtherMsg);
            && s.persist == None && s.cmd == None
            && s.pager.currentIndex == p.currentIndex && s.pager.content == p.content
            && s.pager.ready == p.ready
            && s.pager.st.pageTotal == p.st.pageTotal
            && s.pager.st.posMapOffset == p.st.posMapOffset
            && (p.st.jump > 1 ==> s.pager.st.currentPage == p.st.jump && s.pager.st.jump == 0)
            && (p.st.jump <= 1 ==> s.pager.st == p.st)
  {
  }

  /** Only the first window size lays the text out, always at its first
      page, for the window height less the margin: the text shown becomes
      the physical lines joined, and the page count and page map are the
      layout's. Later window sizes change nothing the model keeps. */
  lemma ResizeLaysOutOnce(env: Env, p: Pager, width: int, height: int)
    requires WellFormed(env) && Admissible(env, p, Resize(width, height))
    requires Inv(p)
    ensures var s := Update(env, p, Resize(width, height));
            && s.pager.ready
            && s.persist == None && s.cmd == None
            && (p.ready ==> s.pager == p)
            && (!p.ready ==>
                  var laid := Proc(env.w, p.content, width, height - env.margin, 0, p.st);
                  && s.pager.content == Join(laid.physical, NewLine)
                  && s.pager.st.pageTotal == laid.state.pageTotal
                  && s.pager.st.posMapOffset == laid.state.posMapOffset
                  && s.pager.st.currentPage == 1
                  && s.pager.st.jump == p.st.jump
                  && s.pager.currentIndex == p.currentIndex
                  && s.pager.title == p.title)
  {
    if !p.ready {
      var laid := Proc(env.w, p.content, width, height - env.margin, 0, p.st);
      ResizeStepIs(env, p, width, height);
      assert laid.state.currentPage == 1 && laid.state.jump == p.st.jump;
    }
  }

  lemma ResizeStepIs(env: Env, p: Pager, width: int, height: int)
    requires !p.ready && CanLayOut(env, p.content, width, height - env.margin)
    ensures ResizeStep(env, p, width, height) == Resized(p, Proc(env.w, p.content, width, height - env.margin, 0, p.st))
  {
  }
}

=== FILE: shelf.dfy ===
/**
  The book shelf (views/shelf.go): the reading-progress percentage shown
  for every book, and opening a book at its saved position.
 */
module Shelf {
  import opened Wrappers
  import opened Arith
  import opened Chapters
  import opened Layout
  import opened Pager

  function Abs(x: int): int
  {
    if x < 0 then -x else x
  }

  /** Go's integer division, which truncates toward zero: the remainder
      `a - q * b` is smaller than `b` in magnitude and never has the
      opposite sign of `a`. */
  function GoDiv(a: int, b: int): (q: int)
    requires b != 0
    ensures var r := a - q * b;
            && (a >= 0 ==> 0 <= r < Abs(b))
            && (a < 0 ==> -Abs(b) < r <= 0)
  {
    var q0 := Abs(a) / Abs(b);
    var q := if (a < 0) == (b < 0) then q0 else -q0;
    TruncatedRemainder(a, b, q);
    q
  }

  lemma NatDiv(x: int, y: int)
    requires 0 <= x && 0 < y
    ensures 0 <= x - (x / y) * y < y
  {
  }

  /** The quotient of the magnitudes, signed by the operands, leaves a
      remainder with the dividend's sign. */
  lemma TruncatedRemainder(a: int, b: int, q: int)
    requires b != 0
    requires q == if (a < 0) == (b < 0) then Abs(a) / Abs(b) else -(Abs(a) / Abs(b))
    ensures var r := a - q * b;
            && (a >= 0 ==> 0 <= r < Abs(b))
            && (a < 0 ==> -Abs(b) < r <= 0)
  {
    var x, y := Abs(a), Abs(b);
    var q0 := x / y;
    NatDiv(x, y);
    if a >= 0 && b > 0 {
      assert q == q0 && a == x && b == y;
    } else if a >= 0 {
      assert q == -q0 && a == x && b == -y;
      assert q * b == q0 * y;
    } else if b > 0 {
      assert q == -q0 && a == -x && b == y;
      assert q * b == -(q0 * y);
    } else {
      assert q == q0 && a == -x && b == -y;
      assert q * b == -(q0 * y);
    }
  }

  /** The percentage in `getLatestItems`: `LastPos * 100 / (Length - 1)`,
      truncated, then capped at 100. Go panics when `Length` is 1. */
  function Progress(lastPos: int, length: int): (r: int)
    requires length != 1
    ensures r <= 100
    ensures length >= 2 && lastPos >= 0 ==> r >= 0
    ensures length >= 2 && lastPos >= length - 1 ==> r == 100
    ensures lastPos == 0 ==> r == 0
  {
    var p := GoDiv(lastPos * 100, length - 1);
    QuotientBounds(lastPos, length - 1);
    if p > 100 then 100 else p
  }

  lemma QuotientBounds(lastPos: int, d: int)
    requires d != 0
    ensures var p := GoDiv(lastPos * 100, d);
            && (d > 0 && lastPos >= 0 ==> p >= 0)
            && (d > 0 && lastPos >= d ==> p >= 100)
            && (lastPos == 0 ==> p == 0)
  {
    if d > 0 {
      if lastPos >= 0 {
        QuotientNonNegative(lastPos * 100, d);
      }
      if lastPos >= d {
        MulMonotone(d, lastPos, 100);
        QuotientAtLeast(lastPos * 100, d, 100);
      }
    }
    if lastPos == 0 {
      QuotientOfZero(d);
    }
  }

  lemma QuotientNonNegative(a: int, d: int)
    requires 0 <= a && 0 < d
    ensures GoDiv(a, d) >= 0
  {
    var p := GoDiv(a, d);
    if p < 0 {
      MulMonotone(p, -1, d);
    }
  }

  lemma QuotientAtLeast(a: int, d: int, k: int)
    requires 0 < d && k * d <= a
    ensures GoDiv(a, d) >= k
  {
    var p := GoDiv(a, d);
    if p < k {
      MulMonotone(p, k - 1, d);
    }
  }

  lemma QuotientOfZero(d: int)
    requires d != 0
    ensures GoDiv(0, d) == 0
  {
    var p := GoDiv(0, d);
    var e := Abs(d);
    assert p * d == if d > 0 then p * e else -(p * e);
    if p >= 1 {
      MulMonotone(1, p, e);
    } else if p <= -1 {
      MulMonotone(p, -1, e);
    }
  }

  /** Below the last line, the progress is the floor of the exact percentage. */
  lemma ProgressFloor(lastPos: int, length: int)
    requires length >= 2 && 0 <= lastPos < length - 1
    ensures var r := Progress(lastPos, length);
            0 <= r < 100 && r * (length - 1) <= lastPos * 100 < (r + 1) * (length - 1)
  {
    var d := length - 1;
    var q := GoDiv(lastPos * 100, d);
    assert q * d <= lastPos * 100 < q * d + d;
    assert lastPos * 100 < d * 100;
    if q >= 100 {
      MulMonotone(100, q, d);
    }
  }

  /** For a fixed book length of at least two lines, progress never drops as the position advances. */
  lemma ProgressMonotone(a: int, b: int, length: int)
    requires length >= 2 && a <= b
    ensures Progress(a, length) <= Progress(b, length)
  {
    MulMonotone(a, b, 100);
    QuotientsOrdered(a * 100, b * 100, length - 1);
  }

  /** Truncated division by a positive divisor never decreases. */
  lemma QuotientsOrdered(x: int, y: int, d: int)
    requires x <= y && 0 < d
    ensures GoDiv(x, d) <= GoDiv(y, d)
  {
    var p, q := GoDiv(x, d), GoDiv(y, d);
    if x < 0 && y >= 0 {
      QuotientNonNegative(y, d);
      MulMonotone(0, q, d);
    }
    assert p * d < q * d + d;
    BelowNextMultiple(p, q, d);
  }

  lemma BelowNextMultiple(p: int, q: int, d: int)
    requires 0 < d && p * d < q * d + d
    ensures p <= q
  {
    assert (q + 1) * d == q * d + d;
    if p > q {
      MulMonotone(q + 1, p, d);
    }
  }

  /** With no lower clamp, a negative position shows a negative percentage,
      and a book whose lines were all empty (length 0) divides by -1. */
  lemma ProgressExamples()
    ensures Progress(-1, 2) == -100
    ensures Progress(1, 3) == 50
    ensures Progress(2, 4) == 66
    ensures Progress(1, 0) == -100
    ensures Progress(7, 2) == 100
  {
  }

  /** Selecting a book: the chapter holding the saved position, resumed
      there. Inside the book the chapter is the one whose bracket of lines
      holds the position, and no other chapter's does. */
  function OpenAt(env: Env, pos: int): (msg: PagerMsg)
    requires WellFormed(env) && PreludeInRange(env.markers, pos)
    ensures msg.lastPos == pos
    ensures -1 <= msg.currentIndex < |env.markers|
    ensures var r := GetBookContent(env.lines, env.markers, pos);
            msg.title == r.title && msg.content == r.content && msg.currentIndex == r.index
    ensures 0 <= pos < |env.lines| ==>
              Start(env, msg.currentIndex) <= pos < Start(env, msg.currentIndex + 1)
    ensures forall j :: -1 <= j < |env.markers| && Start(env, j) <= pos < Start(env, j + 1) ==>
              j == msg.currentIndex
  {
    ResolveBracketsPosition(env.lines, env.markers, pos);
    forall j | -1 <= j < |env.markers| && Start(env, j) <= pos < Start(env, j + 1)
      ensures j == GetBookContent(env.lines, env.markers, pos).index
    {
      ResolveUnique(env.lines, env.markers, pos, j);
    }
    ChapterAt(env, pos, pos)
  }

  /** Opening a book at a saved position inside the book shows page
      offset / height + 1, the offset counted in logical lines from its
      chapter's heading, and writes the position back when it is positive. */
  lemma OpenResumes(env: Env, p: Pager, pos: int)
    requires WellFormed(env) && PreludeInRange(env.markers, pos)
    requires 0 <= pos < |env.lines|
    requires Inv(p)
    requires Admissible(env, p, Load(OpenAt(env, pos)))
    ensures var msg := OpenAt(env, pos);
            var s := Update(env, p, Load(msg));
            var offset := pos - Start(env, msg.currentIndex);
            var n := |Lines(msg.content)|;
            && 0 <= offset
            && (0 < offset < n ==> s.pager.st.currentPage == offset / (env.height - env.margin) + 1)
            && (offset == 0 ==> s.pager.st.currentPage == 1)
            && (pos > 0 ==> s.persist == Some(pos))
  {
    var msg := OpenAt(env, pos);
    UpdateLoad(env, p, msg);
    LoadShowsPage(env, p, msg);
    LoadWritesPosition(env, p, msg);
    if pos - Start(env, msg.currentIndex) > 0 {
      PageOfDiv(pos - Start(env, msg.currentIndex), env.height - env.margin);
    }
  }
}

=== FILE: text.dfy ===
/**
  Line handling shared by the importer, the resolver and the pager: Go's
  `strings.Join(xs, "\n")` and `strings.Split(s, "\n")`, specialised to a
  one-character separator, and plain concatenation of pieces.
 */
module Text {

  /** The line separator of book files and laid-out text. */
  const NewLine: char := '\n'

  /** `strings.Join`: the elements with `sep` between neighbours. */
  function Join(xs: seq<string>, sep: char): string
  {
    if |xs| == 0 then ""
    else if |xs| == 1 then xs[0]
    else xs[0] + [sep] + Join(xs[1..], sep)
  }

  /** Concatenation of pieces without a separator. */
  function Concat(xs: seq<string>): string
  {
    if |xs| == 0 then "" else Concat(xs[..|xs| - 1]) + xs[|xs| - 1]
  }

  /** Position of the first occurrence of `c` in `s`, or -1. */
  function IndexOf(s: string, c: char): (k: int)
    ensures -1 <= k < |s|
    ensures k == -1 <==> c !in s
    ensures k >= 0 ==> s[k] == c && c !in s[..k]
  {
    if |s| == 0 then -1
    else if s[0] == c then 0
    else
      var k := IndexOf(s[1..], c);
      if k < 0 then -1 else k + 1
  }

  /** `strings.Split`: the pieces between separators; the empty string
      splits into one empty piece. */
  function Split(s: string, sep: char): (r: seq<string>)
    ensures |r| >= 1
    decreases |s|
  {
    var k := IndexOf(s, sep);
    if k < 0 then [s]
    else [s[..k]] + Split(s[k + 1..], sep)
  }

  /** The pieces are maximal: none contains the separator, and joining them
      with it gives back the string. */
  lemma {:induction false} SplitPieces(s: string, sep: char)
    ensures NoSep(Split(s, sep), sep)
    ensures Join(Split(s, sep), sep) == s
    decreases |s|
  {
    var k := IndexOf(s, sep);
    if k >= 0 {
      var rest := Split(s[k + 1..], sep);
      SplitPieces(s[k + 1..], sep);
      var r := [s[..k]] + rest;
      assert r[1..] == rest;
      assert s == s[..k] + [sep] + s[k + 1..];
    }
  }

  /** No element contains the separator. */
  predicate NoSep(xs: seq<string>, sep: char)
  {
    forall i :: 0 <= i < |xs| ==> sep !in xs[i]
  }

  lemma IndexOfAfterPrefix(a: string, c: char, b: string)
    requires c !in a
    ensures IndexOf(a + [c] + b, c) == |a|
  {
    var s := a + [c] + b;
    assert s[|a|] == c;
    assert forall j :: 0 <= j < |a| ==> s[j] == a[j];
  }

  /** Splitting a join recovers the pieces, provided none of them contains the separator. */
  lemma {:induction false} SplitJoin(xs: seq<string>, sep: char)
    requires |xs| >= 1
    requires NoSep(xs, sep)
    ensures Split(Join(xs, sep), sep) == xs
  {
    if |xs| == 1 {
      assert Join(xs, sep) == xs[0];
    } else {
      var tail := Join(xs[1..], sep);
      var s := xs[0] + [sep] + tail;
      assert Join(xs, sep) == s;
      IndexOfAfterPrefix(xs[0], sep, tail);
      var k := |xs[0]|;
      assert s[..k] == xs[0];
      assert s[k + 1..] == tail;
      SplitJoin(xs[1..], sep);
      assert Split(s, sep) == [xs[0]] + Split(tail, sep);
      assert xs == [xs[0]] + xs[1..];
    }
  }

  /** Every character of an element occurs in the join. */
  lemma {:induction false} JoinContains(xs: seq<string>, sep: char, i: int, c: char)
    requires 0 <= i < |xs|
    requires c in xs[i]
    ensures c in Join(xs, sep)
  {
    if |xs| > 1 {
      if i == 0 {
        assert Join(xs, sep) == xs[0] + ([sep] + Join(xs[1..], sep));
      } else {
        JoinContains(xs[1..], sep, i - 1, c);
        assert Join(xs, sep) == (xs[0] + [sep]) + Join(xs[1..], sep);
      }
    }
  }

  lemma ConcatAppend(xs: seq<string>, ys: seq<string>)
    ensures Concat(xs + ys) == Concat(xs) + Concat(ys)
    decreases |ys|
  {
    if |ys| > 0 {
      var zs := xs + ys;
      assert zs[..|zs| - 1] == xs + ys[..|ys| - 1];
      ConcatAppend(xs, ys[..|ys| - 1]);
    } else {
      assert xs + ys == xs;
    }
  }
}

=== FILE: wrappers.dfy ===
/** Failure-carrying datatypes used where the Go code returns an `error`. */
module Wrappers {

  datatype Option<+T> = None | Some(value: T)

  datatype Result<+R, +E> = Success(value: R) | Failure(error: E) {

    predicate IsFailure() {
      Failure?
    }

    function PropagateFailure<U>(): Result<U, E>
      requires Failure?
    {
      Failure(error)
    }

    function Extract(): R
      requires Success?
    {
      value
    }
  }
}
